=== FILE: README.md ===
# Estrela Guia quote generator: a verified model

Estrela Guia is a browser app for self-employed service providers. It lets them write a quote,
have an AI service suggest one item, preview the quote as a chat message, send it by WhatsApp,
and follow their quotes on a small dashboard. This project models the logic under the screens in
Dafny and proves properties of it:

- the application shell (`App`). It holds the signed-in user and the quote. It derives the quote's
  total and title on every edit, copies the provider's profile into the quote, and formats the
  message.
- the quote form (`ItemEdits`, `QuoteForm`):
  - item edits: reading a quantity or a price from what was typed, adding and removing items;
  - the form's controls;
  - the staged reveal of an AI suggestion: status messages first, then a new item whose
    description is typed in one character per step;
  - the date input's value.
- the preview (`QuotePreview`): the bold-line rule, saving a quote into the stored dashboard data
  (an upsert by id), and the send flow with its phone number normalisation.
- the dashboard (`Dashboard`):
  - its storage service: the date reviver, the example data and the load fallback;
  - the three key figures;
  - the status pipeline;
  - the view that writes every update back to the store.
- the AI service's reply handling (`GeminiService`): trimming, the shape check, and the rule that
  every failure reaches the form as one message.
- the mock sign-in service (`AuthService`) and the browser store (`Storage`), which are shared by
  all of the above.

Modelling conventions:

- Money, quantities and prices are `real`. A field that the code tests with
  `typeof x === 'number'` is an `Amount`: either a number or something else.
- Dates are time stamps in milliseconds since 1970-01-01T00:00:00Z.
- The store has two slots, the dashboard data and the session. Each slot is absent, holds a value
  that reads back, or holds text that does not parse.
- Locale formatting (currency, dates, number rendering) is a record of functions passed in.
- The clock, `Date.now()` ids and `new Date(text)` are passed in as parameters.
- The timers of the reveal are steps of a state machine. `QuoteForm.Next` is the pure step, and
  the `QuoteForm.QuoteForm` class performs the same step on its fields.

Two behaviours of the code are worth stating on their own:

- A quantity is read with `parseInt(value, 10) || 1`. The field is a number input with `min="1"`
  (components/QuoteForm.tsx:284), but a typed `-3` is stored as -3. Only 0 and unreadable text
  become 1 (`ItemEdits.QuantityFromText`).
- Each item line shows a quantity × price subtotal that counts a quantity that is not a number
  as 1, while the total counts it as 0 (App.tsx:62, App.tsx:90; `App.SubtotalAndTotalDisagree`).

## Model

| member | source | states |
|---|---|---|
| Strings.NatToString | App.tsx:20 | `String(n)`: the digits of n, never empty, no leading zero |
| Strings.NatToStringRoundTrip | App.tsx:20 | reading the rendered digits back gives n |
| Strings.Pad2 | components/QuoteForm.tsx:201-202 | two digits whose value is n |
| Strings.Or | App.tsx:67 | `s \|\| fallback` on strings: s unless it is empty |
| Strings.Split | components/QuotePreview.tsx:93 | `split` at one character: at least one piece, no piece holds the separator |
| Strings.SplitJoin | components/QuotePreview.tsx:93 | joining the pieces with the separator gives the text back |
| Strings.Join | App.tsx:93 | `join`: empty for no parts; otherwise it starts with the first part, followed by the separator when more parts come |
| Strings.JoinSnoc | App.tsx:93 | `join` of one more part is the earlier join, the separator, then that part |
| Strings.Trim | services/geminiService.ts:78 | `trim`: the result neither starts nor ends with JavaScript whitespace |
| Strings.TrimKeepsMiddle | services/geminiService.ts:78 | trim removes only whitespace at the two ends and keeps one slice of the input |
| Strings.ToLowerAscii | services/authService.ts:31 | same length, each letter lowered |
| Strings.ParseIntPrefix | components/QuoteForm.tsx:148 | `parseInt` is NaN exactly when no digit follows the leading whitespace and sign; otherwise the value of that digit run, negated after a minus |
| Strings.ParseIntSigned | components/QuoteForm.tsx:148 | whitespace, an optional sign and digits followed by a non-digit read as the digits' value, negative exactly after a minus |
| Strings.ParseDecimalPrefix | components/QuoteForm.tsx:144 | `parseFloat` of digits with an optional fraction: NaN only without digits, never negative |
| Json.LastIndex | services/geminiService.ts:79 | the last member with the key, as `JSON.parse` keeps the last duplicate |
| Json.Get | services/geminiService.ts:81-88 | a property is found only on an object |
| AuthService.FindUserIndex | services/authService.ts:31 | the first user whose e-mail matches ignoring case, or -1 when none does |
| AuthService.LookupIn | services/authService.ts:29-47 | sign-in succeeds exactly when some user's e-mail matches, with the first matching user in list order; otherwise the invalid-credentials message |
| AuthService.Lookup | services/authService.ts:31-45 | a found user is one of the two mock users with the e-mail; otherwise the invalid-credentials message |
| AuthService.Login | services/authService.ts:24-48 | a successful sign-in stores the user in the session slot; a failed one leaves it |
| AuthService.Logout | services/authService.ts:50-56 | the session slot is emptied and no user is current |
| AuthService.CurrentUser | services/authService.ts:58-69 | the stored user when the slot reads back; none when it is empty or unreadable |
| AuthService.LookupIgnoresCase | services/authService.ts:31 | e-mails equal up to letter case sign in as the same user |
| AuthService.FindUserIndexIgnoresCase | services/authService.ts:31 | the user search does not see letter case |
| AuthService.LoginAnaAnyCase | services/authService.ts:15-21 | the second mock user signs in under any casing of her e-mail |
| AuthService.LoginUnknownExample | services/authService.ts:42-45 | an unknown e-mail is refused with the invalid-credentials message |
| App.NumberOr | App.tsx:61-62 | a field counts as its number, or as the fallback when it holds no number |
| App.ReduceIsSum | App.tsx:60-64 | the left fold of the total equals the reference sum of quantity × price |
| App.SumAppend | App.tsx:60-64 | one more item adds exactly its quantity × price |
| App.QuoteChange | App.tsx:59-70 | the stored quote has its total and title derived and keeps every other field as edited |
| App.QuoteChangeFixesDerived | App.tsx:59-70 | the derivation changes a quote exactly when its total or title is stale |
| App.QuoteChangeIdempotent | App.tsx:59-70 | deriving twice is deriving once |
| App.QuoteChangeIgnoresStaleFields | App.tsx:65-69 | the incoming title and total never matter |
| App.TotalExample | App.tsx:60-64 | two units at 100 plus an item with a non-number price total 200 |
| App.LastChars | App.tsx:20 | `slice(-n)`: the last n characters, or all of a shorter string |
| App.QuoteId | App.tsx:20 | the id is `#ORC-`, the year, `-`, then exactly the last five characters of the clock reading (all of it when shorter) |
| App.InitialQuote | App.tsx:16-37 | the session's quote: the given id and creation time, valid seven days, empty, draft, probability 50 |
| App.InitialTitleReplacedOnFirstEdit | App.tsx:24 | the first edit replaces the initial title with the default-client title and keeps the total |
| App.WithUser | App.tsx:39-48 | the provider's name, contact and logo come from the user; nothing else changes |
| App.UserEffect | App.tsx:39-48 | the effect changes the quote only while a user is signed in |
| App.WithUserCommutesWithQuoteChange | App.tsx:39-48 | copying the profile and deriving total and title can happen in either order |
| App.AppState.constructor | App.tsx:13-48 | mount reads the session, builds the initial quote and applies the user's profile |
| App.AppState.HandleQuoteChange | App.tsx:59-70 | the held quote becomes the edited quote with total and title derived |
| App.AppState.HandleLogin | App.tsx:50-52 | the user is signed in and the profile copied into the quote |
| App.AppState.HandleLogout | App.tsx:54-57 | the session is cleared in memory and in the store; the quote is kept |
| App.ItemBlocks | App.tsx:88-93 | one text block per item |
| App.ItemsText | App.tsx:88-93 | no items give empty text; otherwise the text starts with the block of item number 1 |
| App.ItemBlocksSnoc | App.tsx:88-92 | one more item adds one block at the end, numbered after the earlier items |
| App.ItemsTextSnoc | App.tsx:88-93 | the text for one more item is the earlier text, a blank line, then the new item's block numbered last |
| App.ItemBlocksNumbering | App.tsx:88-93 | item k, in stored order, is printed as number k + 1 |
| App.SubtotalAndTotalDisagree | App.tsx:88-93 | a non-number quantity counts as 1 in the subtotal shown but as 0 in the total |
| App.FormatIgnoresUnshownFields | App.tsx:72-101 | the message does not depend on the creation date, status, probability, client contact or logo |
| App.HeaderIsLines | App.tsx:83 | the header is the line `*title (id)*` and a blank line |
| App.ProviderIsLines | App.tsx:84 | the provider section is its two lines and a blank line |
| App.ClientIsLines | App.tsx:85 | the client section is its line and a blank line |
| App.GreetingIsLines | App.tsx:86 | the greeting section is its five lines |
| App.OpeningSections | App.tsx:83-86 | the four opening sections are their lines, each ended by a line feed |
| App.FormatQuote | App.tsx:72-101 | the message: the opening sections, then items, total, closing and terms, as stated by FormatLayout, FormatOpensWithHeader and FormatEndsWithTerms |
| App.FormatLayout | App.tsx:100 | the message is the opening lines followed by the items, total, closing and terms |
| App.FormatOpensWithHeader | App.tsx:83-100 | the message opens with the bold title and id |
| App.FormatEndsWithTerms | App.tsx:98-100 | the message ends with the terms block carrying the validity date |
| App.FormatLines | App.tsx:83-100 | with single-line fields, splitting the message at line feeds gives the opening lines first |
| ItemEdits.QuantityFromText | components/QuoteForm.tsx:148 | the parsed integer is stored when it is not 0; NaN and 0 give 1, so the result is never 0 |
| ItemEdits.QuantityOfTyped | components/QuoteForm.tsx:148 | a typed number with its sign, surrounded by whitespace and trailing text, is stored with its sign; only zero becomes 1 |
| ItemEdits.QuantityRoundTrip | components/QuoteForm.tsx:148 | typing a positive number stores that number |
| ItemEdits.QuantityFallback | components/QuoteForm.tsx:148 | empty text and `0` both give 1 |
| ItemEdits.SanitizePrice | components/QuoteForm.tsx:158 | only digits and commas are kept |
| ItemEdits.SanitizePriceChar | components/QuoteForm.tsx:158 | one character is kept exactly when it is a digit or a comma; with SanitizePriceConcat every other character is dropped and the order kept |
| ItemEdits.SanitizePriceKeeps | components/QuoteForm.tsx:158 | text of digits and commas is left as it is |
| ItemEdits.SanitizePriceIdempotent | components/QuoteForm.tsx:157-160 | sanitising twice is sanitising once |
| ItemEdits.RemoveDots | components/QuoteForm.tsx:144 | no dot is left |
| ItemEdits.ReplaceFirstComma | components/QuoteForm.tsx:144 | text without a comma is unchanged |
| ItemEdits.ReplaceFirstCommaAfter | components/QuoteForm.tsx:144 | only the first comma becomes a point |
| ItemEdits.PriceFromText | components/QuoteForm.tsx:144 | a typed price is never negative, and unreadable text gives 0 |
| ItemEdits.SanitizeGrouped | components/QuoteForm.tsx:158 | sanitising a dot-grouped number gives back its digits |
| ItemEdits.SanitizeDisplay | components/QuoteForm.tsx:157-165 | sanitising a displayed price leaves the digits, a comma and two cent digits |
| ItemEdits.CommaBecomesPoint | components/QuoteForm.tsx:144 | `whole,frac` becomes `whole.frac` |
| ItemEdits.ParsePointDecimal | components/QuoteForm.tsx:144 | `whole.frac` reads as its decimal value, `.5` with no whole part included |
| ItemEdits.PriceOfDigits | components/QuoteForm.tsx:144 | digits alone are read as the whole number they spell, so typing 150 stores 150 |
| ItemEdits.PriceOfCommaDecimal | components/QuoteForm.tsx:144 | a comma-decimal price reads as its decimal value, `,5` included; a lone comma gives 0 |
| ItemEdits.PriceDisplayRoundTrip | components/QuoteForm.tsx:157-165 | sanitising and reading a price in its displayed form gives back whole + cents/100 |
| ItemEdits.EditFromText | components/QuoteForm.tsx:140-153 | a description is taken as typed, a quantity is never 0, a price is never negative |
| ItemEdits.ApplyEdit | components/QuoteForm.tsx:140-153 | an edit never changes the item's id |
| ItemEdits.UpdateItem | components/QuoteForm.tsx:140-155 | items with the id get the edit, the others are unchanged, and length and order stay |
| ItemEdits.UpdateItemAbsent | components/QuoteForm.tsx:141-153 | an unknown id changes nothing |
| ItemEdits.UpdateItemIdempotent | components/QuoteForm.tsx:141-153 | repeating an edit changes nothing more |
| ItemEdits.UpdateItemAppend | components/QuoteForm.tsx:141-153 | editing a list is editing each part |
| ItemEdits.AddItem | components/QuoteForm.tsx:167-170 | a new empty item of quantity 1 and price 0 is appended; the others stay in place |
| ItemEdits.RemoveItem | components/QuoteForm.tsx:172-174 | an item stays exactly when its id differs; no item with the id is left |
| ItemEdits.RemoveItemAppend | components/QuoteForm.tsx:172-174 | removal keeps the order of the remaining items |
| ItemEdits.RemoveItemAbsent | components/QuoteForm.tsx:172-174 | removing an unknown id changes nothing |
| ItemEdits.AddThenRemove | components/QuoteForm.tsx:167-174 | removing a just-added item restores the list |
| ItemEdits.AddItemKeepsTotal | components/QuoteForm.tsx:167-170 | adding an empty item leaves the total as it was |
| ItemEdits.ItemChange | components/QuoteForm.tsx:140-155 | an item edit changes the item list and nothing else |
| ItemEdits.PriceInputChange | components/QuoteForm.tsx:157-160 | a price input is an item edit of the sanitised text |
| ItemEdits.InputChange | components/QuoteForm.tsx:120-138 | the named field takes the value (a logo as its data URL) and every other field, the title and total included, is unchanged |
| ItemEdits.InputChangeLastWins | components/QuoteForm.tsx:120-127 | editing the same field twice keeps only the later value |
| ItemEdits.InputChangeCommutes | components/QuoteForm.tsx:120-127 | edits of different fields can be made in either order |
| ItemEdits.InputChangeDerived | components/QuoteForm.tsx:120-127 | after a plain input the total is the same, and the title changes only with the client's name |
| QuoteForm.InitialForm | components/QuoteForm.tsx:36-48 | the form starts idle, with no messages, nothing pending and nothing being typed |
| QuoteForm.SelectArea | components/QuoteForm.tsx:50-58 | a new area resets the service and lists its services, or none when the area is unknown; the same area changes nothing |
| QuoteForm.SelectService | components/QuoteForm.tsx:246 | only the selected service changes |
| QuoteForm.Generate | components/QuoteForm.tsx:176-185 | without an area and a service only the selection error is set; otherwise loading starts with the messages cleared |
| QuoteForm.Press | components/QuoteForm.tsx:257-258 | the button does nothing while loading, without a service or while typing |
| QuoteForm.NewAreaDisablesButton | components/QuoteForm.tsx:50-58 | right after an area change the button does nothing |
| QuoteForm.PressStartsOnlyWhenIdle | components/QuoteForm.tsx:257-258 | loading starts only from an idle form with area and service chosen |
| QuoteForm.Receive | components/QuoteForm.tsx:186-194 | a reply queues the intro messages and the final message and holds the item; an error stops loading and shows its message |
| QuoteForm.ShownMessage | components/QuoteForm.tsx:265 | the line shown is the current message when it is non-empty, and is never empty |
| QuoteForm.FinalMessageShownLast | components/QuoteForm.tsx:265 | once every message has been shown, the final message stays on screen |
| QuoteForm.Next | components/QuoteForm.tsx:61-117 | with nothing loading and nothing being typed a step changes nothing |
| QuoteForm.ThinkTick | components/QuoteForm.tsx:61-92 | while messages remain only the index advances; after the last one loading stops, and pending details become one new item with its typing started |
| QuoteForm.TypeTick | components/QuoteForm.tsx:95-117 | at the end of the text typing stops; otherwise the item with the id shows one more character of the text |
| QuoteForm.RunAdd | components/QuoteForm.tsx:61-117 | a+b steps are a steps and then b steps |
| QuoteForm.InitialFormInv | components/QuoteForm.tsx:36-48 | the reveal invariant holds at mount |
| QuoteForm.DescriptionTick | components/QuoteForm.tsx:105-113 | one typing step extends the shown description by one character of the full text |
| QuoteForm.SettleTypedSoFar | components/QuoteForm.tsx:77-86 | the new item starts with an empty description and is the only item with its id |
| QuoteForm.NextKeepsInv | components/QuoteForm.tsx:61-117 | every step keeps the reveal invariant |
| QuoteForm.RunKeepsInv | components/QuoteForm.tsx:61-117 | any number of steps keeps the reveal invariant |
| QuoteForm.ControlsKeepInv | components/QuoteForm.tsx:50-58 | the button and the selects keep the reveal invariant |
| QuoteForm.ReceiveKeepsInv | components/QuoteForm.tsx:186-194 | a reply or an error keeps the reveal invariant |
| QuoteForm.TypedIsPrefix | components/QuoteForm.tsx:105-113 | while typing, the shown description is a prefix of the full text and no longer than it |
| QuoteForm.ThinkingRun | components/QuoteForm.tsx:64-69 | each status step moves to the next message and changes nothing else |
| QuoteForm.QuoteChangeAfterItems | components/QuoteForm.tsx:106-111 | editing the items of a derived quote and deriving again gives the same as deriving once |
| QuoteForm.TypingStep | components/QuoteForm.tsx:105-113 | one typing step shows one more character of the description and changes nothing else |
| QuoteForm.TypingRun | components/QuoteForm.tsx:95-117 | j typing steps show the first i + j characters |
| QuoteForm.RevealCompletes | components/QuoteForm.tsx:61-117 | after the messages and the description are through, the quote holds one new item with quantity 1, the full description and the price; the total grows by that price, the form is idle, and further steps change nothing |
| QuoteForm.QuoteForm.constructor | components/QuoteForm.tsx:35-48 | the form starts in its initial state over the shell's quote |
| QuoteForm.QuoteForm.Step | components/QuoteForm.tsx:61-117 | a timer firing changes the fields as the pure step does |
| QuoteForm.QuoteForm.PressGenerate | components/QuoteForm.tsx:176-185 | pressing the button changes the fields as the pure model does |
| QuoteForm.QuoteForm.ReceiveReply | components/QuoteForm.tsx:186-194 | a reply or an error changes the fields as the pure model does |
| QuoteForm.QuoteForm.ChooseArea | components/QuoteForm.tsx:242 | picking an area changes the fields as the pure model does |
| QuoteForm.QuoteForm.ChooseService | components/QuoteForm.tsx:246 | picking a service changes the fields as the pure model does |
| QuoteForm.QuoteForm.HandleItemChange | components/QuoteForm.tsx:140-155 | the shell's quote becomes the edited quote, derived |
| QuoteForm.QuoteForm.HandlePriceInputChange | components/QuoteForm.tsx:157-160 | the shell's quote takes the sanitised price, derived |
| QuoteForm.QuoteForm.HandleAddItem | components/QuoteForm.tsx:167-170 | the shell's quote gains the new item, derived |
| QuoteForm.QuoteForm.HandleRemoveItem | components/QuoteForm.tsx:172-174 | the shell's quote loses the items with the id, derived |
| QuoteForm.QuoteForm.HandleInputChange | components/QuoteForm.tsx:120-138 | the shell's quote takes the input's value, derived |
| QuoteForm.PadStart2 | components/QuoteForm.tsx:201-202 | at least two digits whose value is n |
| QuoteForm.Html5Date | components/QuoteForm.tsx:197-204 | the value is empty exactly when there is no date |
| QuoteForm.Html5DateFields | components/QuoteForm.tsx:197-204 | the value splits at its dashes into year, month from 1 and day |
| QuotePreview.PreviewReviver | components/QuotePreview.tsx:14-19 | only a truthy value under one of the five date keys is replaced, and by a date |
| QuotePreview.PreviewReviverMakesInvalidDates | components/QuotePreview.tsx:15-16 | text that is not a date becomes an invalid date |
| QuotePreview.EmptyData | components/QuotePreview.tsx:22 | the fallback has all five collections empty |
| QuotePreview.LoadLocal | components/QuotePreview.tsx:11-23 | empty collections when nothing is stored, the stored data otherwise; it fails exactly on unreadable data |
| QuotePreview.FindIndex | components/QuotePreview.tsx:70 | `findIndex`: the first quote with the id, or -1 exactly when no quote has it |
| QuotePreview.Upsert | components/QuotePreview.tsx:70-76 | the first quote with the id is replaced in place, or the quote is appended |
| QuotePreview.UpsertThenFind | components/QuotePreview.tsx:70-76 | after a save the quote is found under its id, exactly as saved |
| QuotePreview.UpsertShape | components/QuotePreview.tsx:70-76 | the length grows only for a new id; quotes with other ids stay in place |
| QuotePreview.UpsertIdempotent | components/QuotePreview.tsx:70-76 | saving the same quote twice is saving it once |
| QuotePreview.UpsertKeepsIdsUnique | components/QuotePreview.tsx:70-76 | a save never creates a second quote with the same id |
| QuotePreview.WithQuote | components/QuotePreview.tsx:69-78 | only the quote list changes |
| QuotePreview.SaveEffect | components/QuotePreview.tsx:64-80 | refused exactly without a client name or items; fails exactly on unreadable data; otherwise stores the upserted data |
| QuotePreview.FirstSave | components/QuotePreview.tsx:64-80 | the first save into an empty store holds only that quote |
| QuotePreview.SaveIdempotent | components/QuotePreview.tsx:64-80 | saving twice in a row stores what one save stores |
| QuotePreview.SaveToDashboard | components/QuotePreview.tsx:64-80 | the method's outcome and the store it leaves are those of the pure save |
| QuotePreview.DigitsOnly | components/QuotePreview.tsx:42 | only digits are kept |
| QuotePreview.DigitsOnlyChar | components/QuotePreview.tsx:42 | one character is kept exactly when it is a digit; with DigitsOnlyConcat every non-digit is dropped and the order kept |
| QuotePreview.DigitsOnlyIdempotent | components/QuotePreview.tsx:42 | normalising a normalised number changes nothing |
| QuotePreview.FullPhone | components/QuotePreview.tsx:51 | `55` goes in front of numbers of ten digits or more |
| QuotePreview.FullPhoneShape | components/QuotePreview.tsx:42-51 | the dialled number is digits, ends with the contact's digits and is two longer exactly for ten digits or more |
| QuotePreview.CountryCodeDoubled | components/QuotePreview.tsx:51 | a number typed with its country code gets `55` a second time |
| QuotePreview.SendEffect | components/QuotePreview.tsx:41-53 | without a phone only a notice; otherwise the store is what saving the quote as sent leaves, the send aborts exactly when that save throws, and an opened link dials the full number with the message text |
| QuotePreview.SendOpensUnlessThrown | components/QuotePreview.tsx:47-52 | the chat opens even when the save is refused; only unreadable stored data stops it |
| QuotePreview.SendStoresSentCopy | components/QuotePreview.tsx:47-48 | a send that saves stores the quote with status sent and every other field unchanged |
| QuotePreview.SendWhatsApp | components/QuotePreview.tsx:41-53 | the method's outcome and store are those of the pure send |
| QuotePreview.RenderLine | components/QuotePreview.tsx:95 | a line is bold exactly when it starts and ends with `*`; a plain line is shown as it is, and bold text is two characters shorter |
| QuotePreview.BoldRoundTrip | components/QuotePreview.tsx:95 | any text wrapped in asterisks is shown bold as exactly that text |
| QuotePreview.BoldLineIsWrapped | components/QuotePreview.tsx:95 | a bold line is its text wrapped back in asterisks |
| QuotePreview.Preview | components/QuotePreview.tsx:93-98 | one shown line per line of the message |
| QuotePreview.OpeningLineAt | components/QuotePreview.tsx:93-95 | the preview's first lines are the message's opening lines, rendered |
| QuotePreview.HeaderShownBold | components/QuotePreview.tsx:93-95 | the first shown line is `title (id)` in bold |
| QuotePreview.ProviderLineStyle | components/QuotePreview.tsx:93-95 | the provider line is shown plain unless the name ends with `*` |
| Dashboard.DataReviver | components/Dashboard.tsx:7-17 | only a string under one of the six date keys that reads as a valid date is replaced, and by that date; an invalid date is never produced |
| Dashboard.DataReviverIdempotent | components/Dashboard.tsx:9-17 | reviving twice is reviving once |
| Dashboard.ReviversCompared | components/Dashboard.tsx:7-17 | against the preview's reviver: both agree on valid dates; on invalid text only the preview makes an invalid date; only the dashboard revives `date` |
| Dashboard.InitialData | components/Dashboard.tsx:19-32 | four example quotes with no items, every other list empty |
| Dashboard.InitialDataShape | components/Dashboard.tsx:22-27 | the example quotes have distinct ids and none is a draft |
| Dashboard.Load | components/Dashboard.tsx:35-49 | the stored data when it reads back; with nothing stored the example data, which is also stored; with unreadable data the example data and the store untouched |
| Dashboard.LoadStable | components/Dashboard.tsx:35-49 | loading again gives the same data and store |
| Dashboard.SaveThenLoad | components/Dashboard.tsx:50-57 | what was saved is what the next load returns |
| Dashboard.LoadersDisagreeOnEmptyStore | components/Dashboard.tsx:41-44 | on an empty store the dashboard starts with four quotes, the preview's loader with none |
| Dashboard.GetDashboardData | components/Dashboard.tsx:35-49 | the method returns and stores what the pure load does |
| Dashboard.SaveDashboardData | components/Dashboard.tsx:50-57 | the store holds the data |
| Dashboard.IsSentExceptDraft | components/Dashboard.tsx:93 | every status but the draft counts as sent |
| Dashboard.WeekBefore | components/Dashboard.tsx:90-91 | seven days of milliseconds before now |
| Dashboard.SentSince | components/Dashboard.tsx:93 | the count never exceeds the number of quotes |
| Dashboard.SentSinceZero | components/Dashboard.tsx:93 | nothing is counted exactly when every quote is a draft or older than a week |
| Dashboard.SentSinceAppend | components/Dashboard.tsx:93 | counting two lists is adding their counts |
| Dashboard.CountStatus | components/Dashboard.tsx:95-96 | zero exactly when no quote has the status |
| Dashboard.WinRate | components/Dashboard.tsx:95-98 | 0 with nothing closed; otherwise won/closed × 100 rounded to the nearest integer, halves up; always within 0..100 |
| Dashboard.WinRateExtremes | components/Dashboard.tsx:98 | all won gives 100, none won gives 0 |
| Dashboard.PipelineOnlyActive | components/Dashboard.tsx:100-102 | quotes neither sent nor in negotiation add nothing |
| Dashboard.PipelineSingle | components/Dashboard.tsx:100-102 | one quote adds total × probability/100 exactly when it is sent or in negotiation, and nothing otherwise |
| Dashboard.PipelineAppend | components/Dashboard.tsx:100-102 | the pipeline of two lists is the sum of their pipelines |
| Dashboard.PipelineValue | components/Dashboard.tsx:100-102 | the weighted pipeline is never negative when totals and probabilities are not |
| Dashboard.PipelineBounds | components/Dashboard.tsx:100-102 | with sane totals and probabilities the pipeline lies between 0 and the active quotes' total |
| Dashboard.ComputeKpis | components/Dashboard.tsx:89-109 | the win rate is within 0..100 and the sent count within the number of quotes |
| Dashboard.KpiExample | components/Dashboard.tsx:89-109 | two won, one lost and one sent at 50% of 300 give 4 sent, 67% and 150 |
| Dashboard.Bucket | components/Dashboard.tsx:143 | a quote is in a status's column exactly when it has that status; the column size is the status's count |
| Dashboard.BucketAppend | components/Dashboard.tsx:143 | `filter` of a concatenation is the filter of each part, in order; with BucketSingle this makes a column the quotes of its status in list order |
| Dashboard.BucketSingle | components/Dashboard.tsx:143 | one quote is kept exactly by its own status |
| Dashboard.ColumnsAppend | components/Dashboard.tsx:141-146 | each rendered column of a concatenated list is that column of the first part followed by that of the second |
| Dashboard.QuotesByStatus | components/Dashboard.tsx:141-146 | every status has a column, and every quote is in exactly the column of its status |
| Dashboard.BucketsPartition | components/Dashboard.tsx:132-146 | the five column sizes add up to the number of quotes |
| Dashboard.FindQuote | components/Dashboard.tsx:149 | `find`: none exactly when no quote has the id; otherwise the quote at the first index holding the id |
| Dashboard.StatusChange | components/Dashboard.tsx:148-153 | no update for an unknown id; otherwise the first quote with the id, with only its status changed |
| Dashboard.ReplaceById | components/Dashboard.tsx:211 | quotes with the id are replaced, the others kept, and length and order stay |
| Dashboard.ReplaceAbsent | components/Dashboard.tsx:211 | an update for an unknown id changes nothing |
| Dashboard.ReplaceIsUpsert | components/Dashboard.tsx:211 | with distinct ids the dashboard's update and the preview's save agree |
| Dashboard.ChangeStatus | components/Dashboard.tsx:148-153 | a status change keeps the list's length |
| Dashboard.ChangeStatusEffect | components/Dashboard.tsx:148-153 | with distinct ids any status can be set from any status; only that quote's status changes, and an unknown id changes nothing |
| Dashboard.ChangeStatusCopiesFirst | components/Dashboard.tsx:149-151 | with a repeated id, the first quote with it is copied over the later ones |
| Dashboard.DashboardView.Figures | components/Dashboard.tsx:89-109 | the figures shown respect the bounds of the key figures |
| Dashboard.DashboardView.constructor | components/Dashboard.tsx:199 | mount loads the data as the storage service does |
| Dashboard.DashboardView.OnStorageChange | components/Dashboard.tsx:201-208 | a storage event reloads the data |
| Dashboard.DashboardView.HandleUpdateQuote | components/Dashboard.tsx:210-215 | the held data takes the replaced quote list and is written to the store |
| Dashboard.DashboardView.HandleStatusChange | components/Dashboard.tsx:148-153 | the held quotes take the status change and only they change; the store is written only for a known id |
| GeminiService.AsResponse | services/geminiService.ts:89 | the response read carries exactly the parsed messages, description, price and final message |
| GeminiService.ValidShape | services/geminiService.ts:81-88 | an accepted value is a JSON object |
| GeminiService.GenerateQuoteDetails | services/geminiService.ts:78-97 | success exactly when the trimmed text parses to the expected shape, returning that value's messages, description, price and final message whatever else it holds; every failure carries the one message |
| GeminiService.AcceptedUnchanged | services/geminiService.ts:81-89 | every response in the expected shape is accepted and handed on unchanged, an empty message list included |
| GeminiService.GenerateAccepts | services/geminiService.ts:78-89 | a reply that parses to a response returns that response |
| GeminiService.OnlyObjectsAccepted | services/geminiService.ts:81-88 | a value that is not an object is refused |
| GeminiService.PaddingIgnored | services/geminiService.ts:78 | whitespace around the reply text does not change the outcome |
| GeminiService.ForForm | services/geminiService.ts:96 | the form receives the response, or an error carrying the message |
| GeminiService.FormShowsOneMessage | services/geminiService.ts:90-97 | whatever failed, the form shows the one failure message and stops loading |

## Left out

- Rendering, styling, icons, the login screen, the header, the contact banner, printing and copying to the clipboard are user interface with no logic to state.
- Timers are steps of `QuoteForm.Next`. Their delays, the cancellation of a pending timer and the race between a timer and a user edit are not modelled.
- The call to the AI service, the API key check and the prompt text are a foreign service. The model starts from the reply text.
- `JSON.parse` and `JSON.stringify` are abstract: a stored slot either reads back or does not. The revivers are modelled per key and value, not over the walk of the parsed tree.
- A stored empty string counts as nothing stored, as `if (data)` treats it.
- A failing `localStorage.setItem` (quota, private mode) is not modelled. Every write succeeds.
- Locale formatting (`toLocaleString`, `toLocaleDateString`) is a record of functions passed in.
- Turning `new Date(...)` into a time stamp is a function passed in. Local-time calendar arithmetic, daylight saving time and the `setDate` rollover are not modelled: a week is seven times 86 400 000 ms.
- Showing the notification text and hiding it after three seconds are not modelled.
- The `probability` input delivers text while the model takes a number. Edits of fields the form never names (such as `id`) through the generic input handler are left out.
- `Strings.ParseIntPrefix`: reads integers without bound. `parseInt` turns digit runs beyond 2^53 into rounded doubles, and that loss of precision is not modelled.
- `Strings.ParseDecimalPrefix`: reads digits with an optional fraction, which covers every text the price input passes on. Exponents, signs and `Infinity` are not modelled.
- `Strings.ToLowerAscii`: lowers ASCII letters only. `toLowerCase` on other Unicode letters is not modelled.
- `Dashboard.WinRate`: rounds the exact ratio. Floating-point error in `(won / closed) * 100` near a half, before `toFixed(0)`, is not modelled.
- `Dashboard.PipelineBounds` and the other real-valued sums: use exact arithmetic, not IEEE doubles.
- `App.FormatLines`: proves the line structure of the opening sections only. The items, total, closing and terms are proved as text, not line by line.
- Strings count Dafny characters, where JavaScript counts UTF-16 code units. Outside the Basic Multilingual Plane (emoji), `fullText.length` and `substring(0, currentIndex + 1)` take two ticks per character and briefly show a lone surrogate. `QuoteForm.RevealCompletes`, `QuoteForm.TypedIsPrefix`, `App.LastChars` and `Strings.Trim` do not capture this.
- A cleared date input yields an Invalid Date (`new Date('')`). `Quote.validity` is an integer time stamp, so the invalid validity, `getHtml5Date`'s "NaN-NaN-NaN" and the formatter's "Invalid Date" are not modelled.
- `ItemEdits.PriceFromText`: reads no sign, so a price text of `-5` given straight to the item handler gives 0 where `parseFloat` gives -5. The price input only ever passes sanitised text of digits and commas, which holds no sign.
- `QuoteForm.SelectArea`: the services of an area come from a fixed map. JavaScript's lookups of inherited object properties (an area called `toString`) are not modelled.

=== FILE: app.dfy ===
/**
 * The quote held by the application shell: its initial value, the derivation
 * every edit goes through (total and title), the provider fields copied from
 * the signed-in user, and the message text built from the quote.
 */
module App {
  import opened Wrappers
  import opened Strings
  import opened Types
  import opened Storage
  import AuthService

  const TitlePrefix := "Orçamento para "
  const DefaultClientTitle := "Novo Cliente"
  const InitialTitle := "Novo Orçamento"
  const ValidityDays := 7
  /** Milliseconds in a day. */
  const DayMs := 86_400_000
  const InitialProbability := 50

  // ---------------------------------------------------------------------
  // Derivation of total and title (handleQuoteChange)
  // ---------------------------------------------------------------------

  /** The number a field holds, or `fallback` when it does not hold a number. */
  function NumberOr(a: Amount, fallback: real): (r: real)
    ensures a.Num? ==> r == a.n
    ensures a.NonNumeric? ==> r == fallback
  {
    match a
    case Num(n) => n
    case NonNumeric => fallback
  }

  /** quantity × price as the total counts it: a field that is not a number counts as 0. */
  function LineValue(item: QuoteItem): real
  {
    NumberOr(item.quantity, 0.0) * NumberOr(item.price, 0.0)
  }

  /** Reference definition of a quote's total: the sum of its line values. */
  function Sum(items: seq<QuoteItem>): real
  {
    if items == [] then 0.0 else LineValue(items[0]) + Sum(items[1..])
  }

  /** The `reduce` of handleQuoteChange: a left fold from an accumulator. */
  function Reduce(acc: real, items: seq<QuoteItem>): real
    decreases |items|
  {
    if items == [] then acc else Reduce(acc + LineValue(items[0]), items[1..])
  }

  lemma {:induction false} ReduceIsSum(acc: real, items: seq<QuoteItem>)
    ensures Reduce(acc, items) == acc + Sum(items)
    decreases |items|
  {
    if items != [] {
      ReduceIsSum(acc + LineValue(items[0]), items[1..]);
    }
  }

  /** Appending an item adds exactly its line value to the sum. */
  lemma {:induction false} SumAppend(items: seq<QuoteItem>, x: QuoteItem)
    ensures Sum(items + [x]) == Sum(items) + LineValue(x)
  {
    if items != [] {
      assert (items + [x])[1..] == items[1..] + [x];
      SumAppend(items[1..], x);
    }
  }

  /** A quote whose derived fields agree with the rest of it. */
  predicate Derived(q: Quote)
  {
    q.total == Sum(q.items) && q.title == TitlePrefix + Or(q.clientName, DefaultClientTitle)
  }

  /** handleQuoteChange: the quote stored for an edited quote. */
  function QuoteChange(updated: Quote): (r: Quote)
    ensures Derived(r)
    ensures r.(title := updated.title, total := updated.total) == updated
  {
    ReduceIsSum(0.0, updated.items);
    updated.(title := TitlePrefix + Or(updated.clientName, DefaultClientTitle),
             total := Reduce(0.0, updated.items))
  }

  /** The derivation changes a quote exactly when its derived fields are stale. */
  lemma QuoteChangeFixesDerived(q: Quote)
    ensures QuoteChange(q) == q <==> Derived(q)
  {
  }

  /** Re-applying the derivation to its own output changes nothing. */
  lemma QuoteChangeIdempotent(q: Quote)
    ensures QuoteChange(QuoteChange(q)) == QuoteChange(q)
  {
    QuoteChangeFixesDerived(QuoteChange(q));
  }

  /** The stored result depends on the edited quote only outside its derived fields. */
  lemma QuoteChangeIgnoresStaleFields(q: Quote, title: string, total: real)
    ensures QuoteChange(q.(title := title, total := total)) == QuoteChange(q)
  {
  }

  /** Item example: two units of 100 and an item whose price is not a number total 200. */
  lemma TotalExample(q: Quote, a: QuoteItem, b: QuoteItem)
    requires a.quantity == Num(2.0) && a.price == Num(100.0)
    requires b.quantity == Num(1.0) && b.price == NonNumeric
    ensures QuoteChange(q.(items := [a, b])).total == 200.0
  {
    assert [a, b][1..] == [b] && [b][1..] == [];
    assert Sum([b]) == LineValue(b) + Sum([]);
    assert LineValue(a) == 200.0 && LineValue(b) == 0.0;
  }

  // ---------------------------------------------------------------------
  // Initial quote and the signed-in user's provider fields
  // ---------------------------------------------------------------------

  /** The last `n` characters (`s.slice(-n)`), or all of `s` when it is shorter. */
  function LastChars(s: string, n: nat): (r: string)
    requires n > 0
    ensures |r| == if |s| < n then |s| else n
    ensures r == s[|s| - |r|..]
  {
    if |s| <= n then s else s[|s| - n..]
  }

  /** `#ORC-<year>-<last five digits of the clock>`. */
  function QuoteId(year: nat, nowMillis: nat): (id: string)
    ensures 6 + |NatToString(year)| <= |id| <= 6 + |NatToString(year)| + 5
    ensures id[..5] == "#ORC-"
    ensures var y := NatToString(year); id[5..5 + |y|] == y && id[5 + |y|] == '-'
    ensures id[6 + |NatToString(year)|..] == LastChars(NatToString(nowMillis), 5)
  {
    var y := NatToString(year);
    var tail := LastChars(NatToString(nowMillis), 5);
    IdParts("#ORC-", y, tail);
    "#ORC-" + y + "-" + tail
  }

  lemma IdParts(p: string, y: string, tail: string)
    ensures var id := p + y + "-" + tail;
      |id| == |p| + |y| + 1 + |tail| && id[..|p|] == p && id[|p|..|p| + |y|] == y && id[|p| + |y|] == '-'
      && id[|p| + |y| + 1..] == tail
  {
    var id := p + y + "-" + tail;
    assert id[..|p|] == p;
    assert id[|p|..|p| + |y|] == y;
    assert id[|p| + |y| + 1..] == tail;
  }

  /** The quote a session starts with, created at time `now`; valid for seven days. */
  function InitialQuote(id: string, now: int): (q: Quote)
    ensures q.id == id && q.createdAt == now && q.validity == now + ValidityDays * DayMs
    ensures q.items == [] && q.total == 0.0 && q.total == Sum(q.items)
    ensures q.status == Rascunho && q.probability == InitialProbability
    ensures q.title == InitialTitle
    ensures q.providerName == "" && q.providerContact == "" && q.providerLogo == Some("")
    ensures q.clientName == "" && q.clientContact == ""
  {
    Quote(id, InitialTitle, now, now + ValidityDays * DayMs, "", Some(""), "", "", "", [], 0.0, Rascunho,
          InitialProbability)
  }

  /**
   * The initial quote is not in derived form: its title is "Novo Orçamento",
   * so the first edit renames it even when the client name stays empty.
   */
  lemma InitialTitleReplacedOnFirstEdit(id: string, now: int)
    ensures QuoteChange(InitialQuote(id, now)).title == TitlePrefix + DefaultClientTitle
    ensures QuoteChange(InitialQuote(id, now)).title != InitialQuote(id, now).title
    ensures QuoteChange(InitialQuote(id, now)).total == InitialQuote(id, now).total
  {
    var t := TitlePrefix + DefaultClientTitle;
    assert t[0] != InitialTitle[0];
  }

  /** The user effect: provider name, contact and logo come from the user; nothing else changes. */
  function WithUser(q: Quote, user: AuthUser): (r: Quote)
    ensures r.providerName == user.providerName && r.providerContact == user.providerContact
    ensures r.providerLogo == user.providerLogo
    ensures r.(providerName := q.providerName, providerContact := q.providerContact,
               providerLogo := q.providerLogo) == q
  {
    q.(providerName := user.providerName, providerContact := user.providerContact,
       providerLogo := user.providerLogo)
  }

  /** The effect runs only while a user is signed in. */
  function UserEffect(q: Quote, authUser: Option<AuthUser>): (r: Quote)
    ensures authUser.None? ==> r == q
    ensures authUser.Some? ==> r == WithUser(q, authUser.value)
  {
    if authUser.Some? then WithUser(q, authUser.value) else q
  }

  /**
   * The user effect writes the quote directly, not through the derivation;
   * since neither touches what the other reads, the order does not matter.
   */
  lemma WithUserCommutesWithQuoteChange(q: Quote, user: AuthUser)
    ensures QuoteChange(WithUser(q, user)) == WithUser(QuoteChange(q), user)
  {
  }

  /** The application shell's state: the signed-in user and the quote being edited. */
  class AppState {
    var authUser: Option<AuthUser>
    var quote: Quote
    const store: LocalStorage

    /** Mount: read the session, build the initial quote, run the user effect. */
    constructor (store: LocalStorage, id: string, now: int)
      ensures this.store == store
      ensures authUser == AuthService.CurrentUser(store)
      ensures quote == UserEffect(InitialQuote(id, now), authUser)
    {
      this.store := store;
      authUser := AuthService.CurrentUser(store);
      quote := UserEffect(InitialQuote(id, now), AuthService.CurrentUser(store));
    }

    /** handleQuoteChange: the edited quote replaces the held one, with total and title derived. */
    method HandleQuoteChange(updated: Quote)
      modifies this`quote
      ensures quote == QuoteChange(updated)
      ensures Derived(quote)
    {
      quote := QuoteChange(updated);
    }

    /** handleLogin followed by the user effect. */
    method HandleLogin(user: AuthUser)
      modifies this`authUser, this`quote
      ensures authUser == Some(user)
      ensures quote == WithUser(old(quote), user)
    {
      authUser := Some(user);
      quote := UserEffect(quote, authUser);
    }

    /** handleLogout: the session is cleared; the quote keeps the provider fields it had. */
    method HandleLogout()
      modifies this`authUser, store`authUser
      ensures authUser.None? && store.authUser.None?
      ensures quote == old(quote)
    {
      AuthService.Logout(store);
      authUser := None;
    }
  }

  // ---------------------------------------------------------------------
  // The message text (formattedQuote)
  // ---------------------------------------------------------------------

  /**
   * The locale-dependent renderings the formatter relies on: pt-BR currency,
   * pt-BR dd/mm/yyyy date, and `${n}` for a number.
   */
  datatype Locale = Locale(currency: real -> string, date: int -> string, number: real -> string)

  const NotInformed := "Não informado"
  const GreetingFallback := "cliente"
  const Closing := "Qualquer dúvida, estou à disposição!"
  const Term2 := "2. *Alterações no Escopo:* Os valores referem-se aos serviços descritos. Alterações no escopo estão sujeitas a nova avaliação de custos."
  const Term3 := "3. *Garantia e Conformidade:* Nossos serviços são executados com profissionalismo e em conformidade com o Código de Defesa do Consumidor (Lei nº 8.078/1990)."
  const Term4 := "4. *Cancelamento:* Em caso de cancelamento após a aprovação, custos de materiais já adquiridos ou etapas executadas poderão ser cobrados."

  function Term1(date: string): string
  {
    "1. *Validade da Proposta:* Este orçamento é válido até " + date + "."
  }

  /** The subtotal an item line shows: a quantity that is not a number counts as 1 here. */
  function ItemSubtotal(item: QuoteItem): real
  {
    NumberOr(item.quantity, 1.0) * NumberOr(item.price, 0.0)
  }

  /** The text block of the item numbered `n`. */
  function ItemBlock(n: nat, item: QuoteItem, loc: Locale): string
  {
    "*" + NatToString(n) + ". " + item.description + "*\n   - Quantidade: "
      + loc.number(NumberOr(item.quantity, 1.0))
      + "\n   - Valor Unit.: " + loc.currency(NumberOr(item.price, 0.0))
      + "\n   - Subtotal: " + loc.currency(ItemSubtotal(item))
  }

  /** The blocks of `items`, numbered from `first` in stored order. */
  function ItemBlocks(items: seq<QuoteItem>, first: nat, loc: Locale): (r: seq<string>)
    ensures |r| == |items|
  {
    if items == [] then [] else [ItemBlock(first, items[0], loc)] + ItemBlocks(items[1..], first + 1, loc)
  }

  /** One more item adds its block, numbered after the others, at the end. */
  lemma {:induction false} ItemBlocksSnoc(items: seq<QuoteItem>, it: QuoteItem, first: nat, loc: Locale)
    ensures ItemBlocks(items + [it], first, loc) == ItemBlocks(items, first, loc) + [ItemBlock(first + |items|, it, loc)]
  {
    if items == [] {
      assert [it][1..] == [];
    } else {
      assert (items + [it])[0] == items[0];
      assert (items + [it])[1..] == items[1..] + [it];
      ItemBlocksSnoc(items[1..], it, first + 1, loc);
    }
  }

  /** The text of one more item: the earlier text, a blank line, then the new item's block numbered last. */
  lemma ItemsTextSnoc(items: seq<QuoteItem>, it: QuoteItem, loc: Locale)
    requires items != []
    ensures ItemsText(items + [it], loc) == ItemsText(items, loc) + "\n\n" + ItemBlock(|items| + 1, it, loc)
  {
    ItemBlocksSnoc(items, it, 1, loc);
    JoinSnoc(ItemBlocks(items, 1, loc), ItemBlock(1 + |items|, it, loc), "\n\n");
  }

  function ItemsText(items: seq<QuoteItem>, loc: Locale): (r: string)
    ensures items == [] ==> r == ""
    ensures items != [] ==> StartsWith(r, ItemBlock(1, items[0], loc))
  {
    Join(ItemBlocks(items, 1, loc), "\n\n")
  }

  function Header(q: Quote): string
  {
    "*" + q.title + " (" + q.id + ")*\n\n"
  }

  function ProviderInfo(q: Quote): string
  {
    "*De:* " + Or(q.providerName, NotInformed) + "\n*Contato:* " + Or(q.providerContact, NotInformed) + "\n\n"
  }

  function ClientInfo(q: Quote): string
  {
    "*Para:* " + Or(q.clientName, NotInformed) + "\n\n"
  }

  /** The greeting template, its fixed text cut at the line feeds. */
  function Greeting(q: Quote): string
  {
    "Olá, " + Or(q.clientName, GreetingFallback) + "! Segue o orçamento solicitado:" + "\n\n" + "---" + "\n"
      + "*Itens do Serviço:*" + "\n\n"
  }

  function TotalText(q: Quote, loc: Locale): string
  {
    "\n\n---\n*Valor Total:* " + loc.currency(q.total) + "\n\n"
  }

  function LegalText(date: string): string
  {
    "\n\n---\n*Termos e Condições:*\n" + Term1(date) + "\n" + Term2 + "\n" + Term3 + "\n" + Term4
  }

  /** The four sections before the items. */
  function Opening(q: Quote): string
  {
    Header(q) + ProviderInfo(q) + ClientInfo(q) + Greeting(q)
  }

  /** The items and the four sections after them. */
  function Body(q: Quote, loc: Locale): string
  {
    ItemsText(q.items, loc) + TotalText(q, loc) + Closing + LegalText(loc.date(q.validity))
  }

  /** formattedQuote: the message sent, copied and previewed; its eight sections in order. */
  function FormatQuote(q: Quote, loc: Locale): string
  {
    Opening(q) + Body(q, loc)
  }

  /** The message opens with the bold title and id. */
  lemma FormatOpensWithHeader(q: Quote, loc: Locale)
    ensures StartsWith(FormatQuote(q, loc), Header(q))
  {
    FourParts(Header(q), ProviderInfo(q), ClientInfo(q), Greeting(q));
    PrefixAndSuffix(Opening(q), Body(q, loc), Header(q), []);
  }

  /** The message ends with the terms block, which carries the validity date. */
  lemma FormatEndsWithTerms(q: Quote, loc: Locale)
    ensures EndsWith(FormatQuote(q, loc), LegalText(loc.date(q.validity)))
  {
    var legal := LegalText(loc.date(q.validity));
    FourParts(ItemsText(q.items, loc), TotalText(q, loc), Closing, legal);
    PrefixAndSuffix(Opening(q), Body(q, loc), [], legal);
  }

  predicate StartsWith(s: string, a: string) { |a| <= |s| && s[..|a|] == a }

  predicate EndsWith(s: string, z: string) { |z| <= |s| && s[|s| - |z|..] == z }

  /** The first and last of four concatenated parts are a prefix and a suffix of the whole. */
  lemma FourParts(a: string, b: string, c: string, d: string)
    ensures StartsWith(a + b + c + d, a) && EndsWith(a + b + c + d, d)
  {
    var s := a + b + c + d;
    assert s[..|a|] == a;
    assert s[|s| - |d|..] == d;
  }

  /** A prefix of the first part and a suffix of the second are a prefix and a suffix of their concatenation. */
  lemma PrefixAndSuffix(x: string, y: string, a: string, z: string)
    requires StartsWith(x, a) && EndsWith(y, z)
    ensures StartsWith(x + y, a) && EndsWith(x + y, z)
  {
    var s := x + y;
    assert s[..|a|] == x[..|a|];
    assert s[|s| - |z|..] == y[|y| - |z|..];
  }

  /** Item `k` (0-based, in stored order) is rendered as item number `first + k`. */
  lemma {:induction false} ItemBlocksNumbering(items: seq<QuoteItem>, first: nat, loc: Locale, k: nat)
    requires k < |items|
    ensures ItemBlocks(items, first, loc)[k] == ItemBlock(first + k, items[k], loc)
  {
    if k > 0 {
      ItemBlocksNumbering(items[1..], first + 1, loc, k - 1);
    }
  }

  /** An item whose quantity is not a number: counted as 1 in its subtotal but as 0 in the total. */
  lemma SubtotalAndTotalDisagree(q: Quote, item: QuoteItem, p: real)
    requires item.quantity == NonNumeric && item.price == Num(p)
    ensures ItemSubtotal(item) == p
    ensures QuoteChange(q.(items := [item])).total == 0.0
  {
    assert [item][1..] == [];
    assert Sum([item]) == LineValue(item) + Sum([]);
    assert LineValue(item) == 0.0 * p == 0.0;
  }

  /** The formatter reads neither the dates of creation, the status, the probability, the client's contact nor the logo. */
  lemma FormatIgnoresUnshownFields(q: Quote, loc: Locale, createdAt: int, status: QuoteStatus,
                                   probability: int, clientContact: string, logo: Option<string>)
    ensures FormatQuote(q.(createdAt := createdAt, status := status, probability := probability,
                           clientContact := clientContact, providerLogo := logo), loc)
         == FormatQuote(q, loc)
  {
  }

  function HeaderLines(q: Quote): seq<string>
  {
    ["*" + q.title + " (" + q.id + ")*", ""]
  }

  function ProviderLines(q: Quote): seq<string>
  {
    ["*De:* " + Or(q.providerName, NotInformed), "*Contato:* " + Or(q.providerContact, NotInformed), ""]
  }

  function ClientLines(q: Quote): seq<string>
  {
    ["*Para:* " + Or(q.clientName, NotInformed), ""]
  }

  function GreetingLines(q: Quote): seq<string>
  {
    ["Olá, " + Or(q.clientName, GreetingFallback) + "! Segue o orçamento solicitado:", "", "---", "*Itens do Serviço:*", ""]
  }

  /** The lines before the item blocks: header, provider, client and greeting sections. */
  function OpeningLines(q: Quote): seq<string>
  {
    HeaderLines(q) + ProviderLines(q) + ClientLines(q) + GreetingLines(q)
  }

  /** The fields the opening sections print verbatim on a line of their own. */
  predicate SingleLineFields(q: Quote)
  {
    '\n' !in q.title && '\n' !in q.id && '\n' !in q.providerName && '\n' !in q.providerContact
    && '\n' !in q.clientName
  }

  // Each section's template, with its fields left open, is its lines joined.

  lemma HeaderText(title: string, id: string)
    ensures "*" + title + " (" + id + ")*\n\n" == JoinLines(["*" + title + " (" + id + ")*", ""])
  {
    JoinLinesCons("*" + title + " (" + id + ")*", [""]);
    JoinLinesCons("", []);
  }

  lemma ProviderText(name: string, contact: string)
    ensures "*De:* " + name + "\n*Contato:* " + contact + "\n\n"
         == JoinLines(["*De:* " + name, "*Contato:* " + contact, ""])
  {
    JoinLinesCons("*De:* " + name, ["*Contato:* " + contact, ""]);
    JoinLinesCons("*Contato:* " + contact, [""]);
    JoinLinesCons("", []);
  }

  lemma ClientText(name: string)
    ensures "*Para:* " + name + "\n\n" == JoinLines(["*Para:* " + name, ""])
  {
    JoinLinesCons("*Para:* " + name, [""]);
    JoinLinesCons("", []);
  }

  /** Five lines, the second and the last blank, joined. */
  lemma JoinWithBlanks(a: string, b: string, c: string)
    ensures JoinLines([a, "", b, c, ""]) == a + "\n\n" + b + "\n" + c + "\n\n"
  {
    JoinLinesCons("", []);
    JoinLinesCons(c, [""]);
    JoinLinesCons(b, [c, ""]);
    JoinLinesCons("", [b, c, ""]);
    JoinLinesCons(a, ["", b, c, ""]);
    assert "" + "\n" + "" == "\n";
    assert "" + "\n" + (b + "\n" + (c + "\n" + "\n")) == "\n" + b + "\n" + c + "\n\n";
  }

  lemma GreetingText(name: string)
    ensures "Olá, " + name + "! Segue o orçamento solicitado:" + "\n\n" + "---" + "\n" + "*Itens do Serviço:*" + "\n\n"
         == JoinLines(["Olá, " + name + "! Segue o orçamento solicitado:", "", "---", "*Itens do Serviço:*", ""])
  {
    JoinWithBlanks("Olá, " + name + "! Segue o orçamento solicitado:", "---", "*Itens do Serviço:*");
  }

  lemma HeaderIsLines(q: Quote)
    ensures Header(q) == JoinLines(HeaderLines(q))
  {
    HeaderText(q.title, q.id);
  }

  lemma ProviderIsLines(q: Quote)
    ensures ProviderInfo(q) == JoinLines(ProviderLines(q))
  {
    ProviderText(Or(q.providerName, NotInformed), Or(q.providerContact, NotInformed));
  }

  lemma ClientIsLines(q: Quote)
    ensures ClientInfo(q) == JoinLines(ClientLines(q))
  {
    ClientText(Or(q.clientName, NotInformed));
  }

  lemma GreetingIsLines(q: Quote)
    ensures Greeting(q) == JoinLines(GreetingLines(q))
  {
    GreetingText(Or(q.clientName, GreetingFallback));
  }

  lemma OpeningSections(q: Quote)
    ensures Opening(q) == JoinLines(OpeningLines(q))
  {
    var h, p, c, g := HeaderLines(q), ProviderLines(q), ClientLines(q), GreetingLines(q);
    HeaderIsLines(q);
    ProviderIsLines(q);
    ClientIsLines(q);
    GreetingIsLines(q);
    JoinLinesAppend(h, p);
    JoinLinesAppend(h + p, c);
    JoinLinesAppend(h + p + c, g);
  }

  /** The message starts with the opening sections, each line ended by a line feed. */
  lemma FormatLayout(q: Quote, loc: Locale)
    ensures FormatQuote(q, loc) == JoinLines(OpeningLines(q)) + Body(q, loc)
  {
    OpeningSections(q);
  }

  /** A line feed in a concatenation is a line feed in one of its parts. */
  lemma NewlineInConcat(a: string, b: string)
    ensures '\n' in a + b <==> '\n' in a || '\n' in b
  {
    if '\n' in a + b {
      var k :| 0 <= k < |a + b| && (a + b)[k] == '\n';
      if k >= |a| { assert b[k - |a|] == '\n'; }
    }
  }

  lemma NewlineInLine(a: string, field: string, b: string)
    requires '\n' !in a && '\n' !in field && '\n' !in b
    ensures '\n' !in a + field + b
  {
    NewlineInConcat(a, field);
    NewlineInConcat(a + field, b);
  }

  lemma HeaderSingleLine(title: string, id: string)
    requires '\n' !in title && '\n' !in id
    ensures '\n' !in "*" + title + " (" + id + ")*"
  {
    NewlineInLine("*", title, " (");
    NewlineInLine("*" + title + " (", id, ")*");
  }

  lemma ProviderSingleLines(name: string, contact: string)
    requires '\n' !in name && '\n' !in contact
    ensures '\n' !in "*De:* " + name && '\n' !in "*Contato:* " + contact
  {
    NewlineInLine("*De:* ", name, "");
    NewlineInLine("*Contato:* ", contact, "");
    assert "*De:* " + name + "" == "*De:* " + name;
    assert "*Contato:* " + contact + "" == "*Contato:* " + contact;
  }

  lemma ClientSingleLine(name: string)
    requires '\n' !in name
    ensures '\n' !in "*Para:* " + name
  {
    NewlineInConcat("*Para:* ", name);
  }

  lemma GreetingSingleLine(name: string)
    requires '\n' !in name
    ensures '\n' !in "Olá, " + name + "! Segue o orçamento solicitado:"
  {
    NewlineInLine("Olá, ", name, "! Segue o orçamento solicitado:");
  }

  /** No opening line holds a line feed when the fields it prints hold none. */
  lemma OpeningSingleLines(q: Quote)
    requires SingleLineFields(q)
    ensures NoNewline(OpeningLines(q))
  {
    HeaderSingleLine(q.title, q.id);
    ProviderSingleLines(Or(q.providerName, NotInformed), Or(q.providerContact, NotInformed));
    ClientSingleLine(Or(q.clientName, NotInformed));
    GreetingSingleLine(Or(q.clientName, GreetingFallback));
  }

  /**
   * Read line by line, the message opens with the header line `*title (id)*`,
   * the provider, client and greeting lines in this order, each of the three
   * names replaced by its fallback when empty, whenever the fields it prints
   * hold no line feed.
   */
  lemma FormatLines(q: Quote, loc: Locale)
    requires SingleLineFields(q)
    ensures |Split(FormatQuote(q, loc), '\n')| > |OpeningLines(q)|
    ensures Split(FormatQuote(q, loc), '\n')[..|OpeningLines(q)|] == OpeningLines(q)
  {
    FormatLayout(q, loc);
    OpeningSingleLines(q);
    SplitPrefix(OpeningLines(q), Body(q, loc));
  }
}

=== FILE: auth_service.dfy ===
/**
 * The simulated login: a case-insensitive first-match lookup in a fixed user
 * directory, with the session kept in the store's auth-user slot.
 */
module AuthService {
  import opened Wrappers
  import opened Strings
  import opened Types
  import opened Storage

  const MockUsers: seq<AuthUser> := [
    AuthUser("uid123", "carlos@exemplo.com", "Carlos Silva Reformas", "(11) 91234-5678", Some("")),
    AuthUser("uid456", "ana@exemplo.com", "Ana Souza - Jardinagem", "(21) 98765-4321", Some(""))
  ]

  const InvalidCredentials := "Credenciais inválidas. Tente 'carlos@exemplo.com'"

  /** `a.toLowerCase() === b.toLowerCase()`, on ASCII letters. */
  predicate SameEmail(a: string, b: string)
  {
    ToLowerAscii(a) == ToLowerAscii(b)
  }

  /** `users.find(u => u.email.toLowerCase() === email.toLowerCase())`, as an index. */
  function FindUserIndex(users: seq<AuthUser>, email: string): (i: int)
    ensures -1 <= i < |users|
    ensures i >= 0 ==> SameEmail(users[i].email, email)
    ensures forall j :: 0 <= j < |users| && (i < 0 || j < i) ==> !SameEmail(users[j].email, email)
  {
    if users == [] then -1
    else if SameEmail(users[0].email, email) then 0
    else
      var k := FindUserIndex(users[1..], email);
      if k < 0 then -1 else k + 1
  }

  /** The outcome of a lookup in `users`: the first match, or the invalid-credentials error. */
  function LookupIn(users: seq<AuthUser>, email: string): (r: Result<AuthUser, string>)
    ensures r.Success? <==> exists i :: 0 <= i < |users| && SameEmail(users[i].email, email)
    ensures r.Success? ==> r.value in users && SameEmail(r.value.email, email)
    ensures r.Success? ==> var i := FindUserIndex(users, email); 0 <= i < |users| && r.value == users[i]
    ensures r.Failure? ==> r.error == InvalidCredentials
  {
    var i := FindUserIndex(users, email);
    if i >= 0 then Success(users[i]) else Failure(InvalidCredentials)
  }

  /** What `login` settles to; the password plays no part in it. */
  function Lookup(email: string): (r: Result<AuthUser, string>)
    ensures r.Success? ==> r.value in MockUsers && SameEmail(r.value.email, email)
    ensures r.Failure? ==> r.error == InvalidCredentials
  {
    LookupIn(MockUsers, email)
  }

  /** `login`: on a match the session slot holds the user; otherwise nothing changes. */
  method Login(store: LocalStorage, email: string, password: string) returns (r: Result<AuthUser, string>)
    modifies store`authUser
    ensures r == Lookup(email)
    ensures r.Success? ==> store.authUser == Some(Stored(r.value))
    ensures r.Failure? ==> store.authUser == old(store.authUser)
  {
    var i := FindUserIndex(MockUsers, email);
    if i >= 0 {
      var user := MockUsers[i];
      store.authUser := Some(Stored(user));
      r := Success(user);
    } else {
      r := Failure(InvalidCredentials);
    }
  }

  /** `logout`: the session slot is emptied. */
  method Logout(store: LocalStorage)
    modifies store`authUser
    ensures store.authUser.None?
    ensures CurrentUser(store).None?
  {
    store.authUser := None;
  }

  /** `getCurrentUser`: the stored user, or none when nothing is stored or it does not parse. */
  function CurrentUser(store: LocalStorage): (r: Option<AuthUser>)
    reads store
    ensures r.Some? <==> store.authUser.Some? && store.authUser.value.Stored?
    ensures r.Some? ==> r.value == store.authUser.value.value
  {
    match store.authUser
    case None => None
    case Some(Stored(u)) => Some(u)
    case Some(Unparsable) => None
  }

  /** Lower-casing both sides makes the lookup blind to the case of the input. */
  lemma LookupIgnoresCase(e1: string, e2: string)
    requires ToLowerAscii(e1) == ToLowerAscii(e2)
    ensures Lookup(e1) == Lookup(e2)
  {
    FindUserIndexIgnoresCase(MockUsers, e1, e2);
  }

  lemma {:induction false} FindUserIndexIgnoresCase(users: seq<AuthUser>, e1: string, e2: string)
    requires ToLowerAscii(e1) == ToLowerAscii(e2)
    ensures FindUserIndex(users, e1) == FindUserIndex(users, e2)
  {
    if users != [] {
      FindUserIndexIgnoresCase(users[1..], e1, e2);
    }
  }

  /** Lower-casing leaves a string without upper-case ASCII letters as it is. */
  lemma LowerAsciiIdentity(s: string)
    requires forall i :: 0 <= i < |s| ==> !('A' <= s[i] <= 'Z')
    ensures ToLowerAscii(s) == s
  {
  }

  /** Only addresses of the same length can match. */
  lemma MatchHasSameLength(users: seq<AuthUser>, email: string)
    ensures FindUserIndex(users, email) >= 0 ==> |users[FindUserIndex(users, email)].email| == |email|
  {
  }

  /** The second user is found when it matches and the first does not. */
  lemma FoundSecond(users: seq<AuthUser>, email: string)
    requires |users| >= 2 && !SameEmail(users[0].email, email) && SameEmail(users[1].email, email)
    ensures LookupIn(users, email) == Success(users[1])
  {
  }

  /** Nobody is found when no address has the input's length. */
  lemma NoneOfLength(users: seq<AuthUser>, email: string)
    requires forall j :: 0 <= j < |users| ==> |users[j].email| != |email|
    ensures LookupIn(users, email) == Failure(InvalidCredentials)
  {
    MatchHasSameLength(users, email);
  }

  lemma AnaNotCarlos(email: string)
    requires ToLowerAscii(email) == "ana@exemplo.com"
    ensures !SameEmail(MockUsers[0].email, email)
  {
    assert |ToLowerAscii(MockUsers[0].email)| != |ToLowerAscii(email)|;
  }

  lemma AnaMatches(email: string)
    requires ToLowerAscii(email) == "ana@exemplo.com"
    ensures SameEmail(MockUsers[1].email, email)
  {
    LowerAsciiIdentity(MockUsers[1].email);
  }

  /**
   * Any spelling of Ana's address that lower-cases to it (for instance
   * "ANA@EXEMPLO.COM") logs her in, whatever the password.
   */
  lemma LoginAnaAnyCase(email: string)
    requires ToLowerAscii(email) == "ana@exemplo.com"
    ensures Lookup(email) == Success(MockUsers[1])
  {
    AnaNotCarlos(email);
    AnaMatches(email);
    FoundSecond(MockUsers, email);
  }

  /** An address outside the directory is refused with the invalid-credentials message. */
  lemma LoginUnknownExample()
    ensures Lookup("nope@x.com") == Failure(InvalidCredentials)
  {
    var users := MockUsers;
    assert |users| == 2 && |users[0].email| == 18 && |users[1].email| == 15;
    NoneOfLength(users, "nope@x.com");
  }
}

=== FILE: dashboard.dfy ===
/**
 * The dashboard: its storage service (reviver, bootstrap data, load with
 * fallback, save), the key figures over the quote list, the status pipeline
 * (quotes grouped by status, status changes) and the view that keeps the
 * loaded data and writes every update back to the store.
 */
module Dashboard {
  import opened Wrappers
  import opened Json
  import opened Types
  import opened Storage
  import opened App
  import opened QuotePreview

  // ---------------------------------------------------------------------
  // The reviver
  // ---------------------------------------------------------------------

  /** The keys whose string values are read back as dates, including the financial records' `date`. */
  const DateFields: seq<string> := ["createdAt", "validity", "entryDate", "startDate", "deadline", "date"]

  /**
   * The dashboard's reviver: a string under a date key becomes a date when
   * `new Date(value)`, here `parseDate`, gives a valid time; anything else is
   * returned as it came.
   */
  function DataReviver(parseDate: string -> Option<int>, key: string, value: Json): (r: Json)
    ensures r != value ==> key in DateFields && value.JStr? && parseDate(value.s).Some?
    ensures key in DateFields && value.JStr? && parseDate(value.s).Some? ==> r == JDate(parseDate(value.s))
    ensures r.JDate? && r.time.None? ==> r == value
  {
    if key in DateFields && value.JStr? then
      var date := parseDate(value.s);
      if date.Some? then JDate(date) else value
    else value
  }

  /** Reviving a revived value changes nothing more. */
  lemma DataReviverIdempotent(parseDate: string -> Option<int>, key: string, value: Json)
    ensures DataReviver(parseDate, key, DataReviver(parseDate, key, value)) == DataReviver(parseDate, key, value)
  {
  }

  /**
   * Against the preview's reviver: on a text that reads as a date both give
   * that date; on one that does not, the dashboard keeps the text while the
   * preview makes an invalid date; and only the dashboard revives `date`.
   */
  lemma ReviversCompared(parseDate: string -> Option<int>, toDate: Json -> Option<int>, key: string, s: string)
    requires key in PreviewDateKeys && s != ""
    requires toDate(JStr(s)) == parseDate(s)
    ensures parseDate(s).Some? ==> PreviewReviver(toDate, key, JStr(s)) == DataReviver(parseDate, key, JStr(s))
    ensures parseDate(s).None? ==>
      PreviewReviver(toDate, key, JStr(s)) == JDate(None) && DataReviver(parseDate, key, JStr(s)) == JStr(s)
    ensures parseDate(s).Some? ==>
      DataReviver(parseDate, "date", JStr(s)).JDate? && PreviewReviver(toDate, "date", JStr(s)) == JStr(s)
  {
    assert key in DateFields;
    assert "date" in DateFields;
    assert "date" !in PreviewDateKeys;
  }

  // ---------------------------------------------------------------------
  // The storage service
  // ---------------------------------------------------------------------

  function SeedQuote(id: string, title: string, clientName: string, total: real, status: QuoteStatus,
                     probability: int, createdAt: int, validity: int): Quote
  {
    Quote(id, title, createdAt, validity, "", None, "", clientName, "", [], total, status, probability)
  }

  /** The four example quotes stored when the store holds no dashboard data; the other lists are empty. */
  function InitialData(): (d: DashboardData)
    ensures |d.quotes| == 4 && d.leads == [] && d.clients == [] && d.tasks == [] && d.financials == []
    ensures forall k :: 0 <= k < 4 ==> d.quotes[k].items == [] && d.quotes[k].clientName != ""
  {
    DashboardData(
      [],
      [ SeedQuote("#ORC-2024-11111", "Reforma Cozinha", "Ana Silva", 7500.0, Negociacao, 75,
                  1721469600000, 1723334399000),       // 2024-07-20T10:00:00Z, 2024-08-10T23:59:59Z
        SeedQuote("#ORC-2024-22222", "Instalação Elétrica", "Construções XYZ", 12800.0, Enviado, 50,
                  1721658600000, 1722297599000),       // 2024-07-22T14:30:00Z, 2024-07-29T23:59:59Z
        SeedQuote("#ORC-2024-33333", "Muro de Contenção", "Carlos Pereira", 25000.0, Ganhou, 100,
                  1721034000000, 1721692799000),       // 2024-07-15T09:00:00Z, 2024-07-22T23:59:59Z
        SeedQuote("#ORC-2024-44444", "Pintura Fachada", "Condomínio Sol", 9500.0, Perdeu, 0,
                  1721300400000, 1721951999000) ],     // 2024-07-18T11:00:00Z, 2024-07-25T23:59:59Z
      [], [], [])
  }

  /** The example quotes have distinct ids, and none is a draft. */
  lemma InitialDataShape()
    ensures UniqueIds(InitialData().quotes)
    ensures CountStatus(InitialData().quotes, Rascunho) == 0
  {
    var qs := InitialData().quotes;
    assert qs[0].id[10] == '1' && qs[1].id[10] == '2' && qs[2].id[10] == '3' && qs[3].id[10] == '4';
    assert qs[0].status == Negociacao && qs[1].status == Enviado && qs[2].status == Ganhou && qs[3].status == Perdeu;
    FourQuotes(qs);
  }

  lemma FourQuotes(qs: seq<Quote>)
    requires |qs| == 4 && forall k :: 0 <= k < 4 ==> qs[k].status != Rascunho && |qs[k].id| > 10
    requires qs[0].id[10] == '1' && qs[1].id[10] == '2' && qs[2].id[10] == '3' && qs[3].id[10] == '4'
    ensures UniqueIds(qs)
    ensures CountStatus(qs, Rascunho) == 0
  {
  }

  datatype Loaded = Loaded(data: DashboardData, slot: Option<Blob<DashboardData>>)

  /**
   * getDashboardData: the stored data when it reads back; with nothing stored
   * the example data, which is also written to the store; with unreadable
   * data the example data, the store left as it is.
   */
  function Load(slot: Option<Blob<DashboardData>>): (r: Loaded)
    ensures slot.None? ==> r == Loaded(InitialData(), Some(Stored(InitialData())))
    ensures slot.Some? ==> r.slot == slot
    ensures slot == Some(Unparsable) ==> r.data == InitialData()
    ensures slot.Some? && slot.value.Stored? ==> r.data == slot.value.value
  {
    match slot
    case Some(Stored(d)) => Loaded(d, slot)
    case None => Loaded(InitialData(), Some(Stored(InitialData())))
    case Some(Unparsable) => Loaded(InitialData(), slot)
  }

  /** Loading again after a load gives the same data and leaves the store as the first load left it. */
  lemma LoadStable(slot: Option<Blob<DashboardData>>)
    ensures Load(Load(slot).slot) == Load(slot)
  {
  }

  /** What was saved is what the next load returns. */
  lemma SaveThenLoad(d: DashboardData)
    ensures Load(Some(Stored(d))).data == d
  {
  }

  /** With nothing stored the dashboard starts from four example quotes, the preview's loader from none. */
  lemma LoadersDisagreeOnEmptyStore()
    ensures |Load(None).data.quotes| == 4 && LoadLocal(None).value.quotes == []
  {
  }

  /** The storage service's getDashboardData. */
  method GetDashboardData(store: LocalStorage) returns (d: DashboardData)
    modifies store`dashboardData
    ensures Loaded(d, store.dashboardData) == Load(old(store.dashboardData))
  {
    match store.dashboardData
    case Some(Stored(stored)) =>
      d := stored;
    case None =>
      d := InitialData();
      store.dashboardData := Some(Stored(d));
    case Some(Unparsable) =>
      d := InitialData();
  }

  /** The storage service's saveDashboardData. */
  method SaveDashboardData(store: LocalStorage, d: DashboardData)
    modifies store`dashboardData
    ensures store.dashboardData == Some(Stored(d))
  {
    store.dashboardData := Some(Stored(d));
  }

  // ---------------------------------------------------------------------
  // Key figures
  // ---------------------------------------------------------------------

  /** The statuses counted as sent. */
  predicate IsSent(s: QuoteStatus)
  {
    s in [Enviado, Negociacao, Ganhou, Perdeu]
  }

  /** The statuses whose quotes make up the weighted pipeline. */
  predicate IsActive(s: QuoteStatus)
  {
    s in [Enviado, Negociacao]
  }

  /** Every status but the draft counts as sent. */
  lemma IsSentExceptDraft(s: QuoteStatus)
    ensures IsSent(s) <==> s != Rascunho
  {
    match s
    case Rascunho =>
    case Enviado => assert [Enviado, Negociacao, Ganhou, Perdeu][0] == s;
    case Negociacao => assert [Enviado, Negociacao, Ganhou, Perdeu][1] == s;
    case Ganhou => assert [Enviado, Negociacao, Ganhou, Perdeu][2] == s;
    case Perdeu => assert [Enviado, Negociacao, Ganhou, Perdeu][3] == s;
  }

  /** The instant a week before `now`. */
  function WeekBefore(now: int): (t: int)
    ensures now - t == 7 * DayMs
  {
    now - 7 * DayMs
  }

  /** How many quotes were sent at or after `since`. */
  function SentSince(quotes: seq<Quote>, since: int): (n: nat)
    ensures n <= |quotes|
  {
    if quotes == [] then 0
    else
      var last := quotes[|quotes| - 1];
      SentSince(quotes[..|quotes| - 1], since) + if IsSent(last.status) && last.createdAt >= since then 1 else 0
  }

  /** No quote is counted exactly when every quote is a draft or older than `since`. */
  lemma {:induction false} SentSinceZero(quotes: seq<Quote>, since: int)
    ensures SentSince(quotes, since) == 0 <==>
      forall k :: 0 <= k < |quotes| ==> quotes[k].status == Rascunho || quotes[k].createdAt < since
  {
    if quotes != [] {
      var init := quotes[..|quotes| - 1];
      SentSinceZero(init, since);
      IsSentExceptDraft(quotes[|quotes| - 1].status);
      assert forall k :: 0 <= k < |init| ==> init[k] == quotes[k];
    }
  }

  /** Counting over two lists is counting over each. */
  lemma {:induction false} SentSinceAppend(a: seq<Quote>, b: seq<Quote>, since: int)
    ensures SentSince(a + b, since) == SentSince(a, since) + SentSince(b, since)
  {
    if b == [] {
      assert a + b == a;
    } else {
      assert (a + b)[..|a + b| - 1] == a + b[..|b| - 1];
      SentSinceAppend(a, b[..|b| - 1], since);
    }
  }

  /** How many quotes have the status. */
  function CountStatus(quotes: seq<Quote>, status: QuoteStatus): (n: nat)
    ensures n <= |quotes|
    ensures n == 0 <==> forall k :: 0 <= k < |quotes| ==> quotes[k].status != status
  {
    if quotes == [] then 0
    else
      var init := quotes[..|quotes| - 1];
      assert forall k :: 0 <= k < |init| ==> init[k] == quotes[k];
      CountStatus(init, status) + if quotes[|quotes| - 1].status == status then 1 else 0
  }

  /**
   * The win rate in percent: 0 with no closed quote, otherwise
   * won / (won + lost) × 100 rounded to the nearest integer, halves up.
   */
  function WinRate(won: nat, lost: nat): (r: nat)
    ensures r <= 100
    ensures won + lost == 0 ==> r == 0
    ensures won + lost > 0 ==>
      2 * r * (won + lost) - (won + lost) <= 200 * won < 2 * r * (won + lost) + (won + lost)
  {
    if won + lost == 0 then 0
    else
      var closed := won + lost;
      RoundedShare(won, closed);
      (200 * won + closed) / (2 * closed)
  }

  lemma RoundedShare(won: nat, closed: nat)
    requires 0 < closed && won <= closed
    ensures var r := (200 * won + closed) / (2 * closed);
      0 <= r <= 100 && 2 * r * closed - closed <= 200 * won < 2 * r * closed + closed
  {
    var n := 200 * won + closed;
    var d := 2 * closed;
    var r := n / d;
    assert n == d * r + n % d && 0 <= n % d < d;
    assert 2 * r * closed == d * r;
    assert d * r <= n < d * 101;
    BelowProduct(r, 101, d);
  }

  lemma BelowProduct(a: int, b: int, d: int)
    requires d > 0 && d * a < d * b
    ensures a < b
  {
  }

  /** All won gives 100, none won gives 0. */
  lemma WinRateExtremes(won: nat, lost: nat)
    ensures won > 0 && lost == 0 ==> WinRate(won, lost) == 100
    ensures won == 0 ==> WinRate(won, lost) == 0
  {
    var r: int := WinRate(won, lost);
    if won > 0 && lost == 0 {
      assert won * 200 < won * (2 * r + 1);
      BelowProduct(200, 2 * r + 1, won);
    }
    if won == 0 && lost > 0 {
      assert lost * (2 * r - 1) < lost * 1;
      BelowProduct(2 * r - 1, 1, lost);
    }
  }

  /** A quote's share of the pipeline: its total weighted by its probability. */
  function Weighted(q: Quote): real
  {
    q.total * (q.probability as real / 100.0)
  }

  /** The weighted pipeline: the sum, in list order, of the weighted totals of the active quotes. */
  function PipelineValue(quotes: seq<Quote>): (v: real)
    ensures (forall k :: 0 <= k < |quotes| ==> quotes[k].total >= 0.0 && quotes[k].probability >= 0) ==> v >= 0.0
  {
    if quotes == [] then 0.0
    else
      var last := quotes[|quotes| - 1];
      PipelineValue(quotes[..|quotes| - 1]) + if IsActive(last.status) then Weighted(last) else 0.0
  }

  /** Quotes that are neither sent nor in negotiation add nothing to the pipeline. */
  lemma {:induction false} PipelineOnlyActive(quotes: seq<Quote>)
    requires forall k :: 0 <= k < |quotes| ==> !IsActive(quotes[k].status)
    ensures PipelineValue(quotes) == 0.0
  {
    if quotes != [] {
      PipelineOnlyActive(quotes[..|quotes| - 1]);
    }
  }

  /** One quote adds its total weighted by its probability when it is active, and nothing otherwise. */
  lemma PipelineSingle(q: Quote)
    ensures PipelineValue([q]) == if IsActive(q.status) then q.total * (q.probability as real / 100.0) else 0.0
  {
    assert [q][..0] == [];
  }

  lemma {:induction false} PipelineAppend(a: seq<Quote>, b: seq<Quote>)
    ensures PipelineValue(a + b) == PipelineValue(a) + PipelineValue(b)
  {
    if b == [] {
      assert a + b == a;
    } else {
      assert (a + b)[..|a + b| - 1] == a + b[..|b| - 1];
      PipelineAppend(a, b[..|b| - 1]);
    }
  }

  /** The sum of the active quotes' totals. */
  function ActiveTotal(quotes: seq<Quote>): real
  {
    if quotes == [] then 0.0
    else
      var last := quotes[|quotes| - 1];
      ActiveTotal(quotes[..|quotes| - 1]) + if IsActive(last.status) then last.total else 0.0
  }

  lemma WeightedBound(q: Quote)
    requires q.total >= 0.0 && 0 <= q.probability <= 100
    ensures 0.0 <= Weighted(q) <= q.total
  {
    var p := q.probability as real / 100.0;
    assert 0.0 <= p <= 1.0;
    assert q.total * p <= q.total * 1.0;
  }

  /** With totals not negative and probabilities in 0..100 the pipeline lies between 0 and the active quotes' total. */
  lemma {:induction false} PipelineBounds(quotes: seq<Quote>)
    requires forall k :: 0 <= k < |quotes| ==> quotes[k].total >= 0.0 && 0 <= quotes[k].probability <= 100
    ensures 0.0 <= PipelineValue(quotes) <= ActiveTotal(quotes)
  {
    if quotes != [] {
      PipelineBounds(quotes[..|quotes| - 1]);
      WeightedBound(quotes[|quotes| - 1]);
    }
  }

  datatype Kpis = Kpis(sentLast7Days: nat, winRate: nat, pipelineValue: real)

  /** The three key figures at instant `now`. */
  function ComputeKpis(quotes: seq<Quote>, now: int): (k: Kpis)
    ensures k.winRate <= 100 && k.sentLast7Days <= |quotes|
  {
    Kpis(SentSince(quotes, WeekBefore(now)),
         WinRate(CountStatus(quotes, Ganhou), CountStatus(quotes, Perdeu)),
         PipelineValue(quotes))
  }

  /** Two won, one lost and one sent at 50%: two thirds won, shown as 67, and a pipeline of 150. */
  lemma KpiExample(now: int)
    ensures var quotes := [
        SeedQuote("a", "", "c", 100.0, Ganhou, 100, now, now),
        SeedQuote("b", "", "c", 200.0, Ganhou, 100, now, now),
        SeedQuote("c", "", "c", 50.0, Perdeu, 0, now, now),
        SeedQuote("d", "", "c", 300.0, Enviado, 50, now, now)];
      ComputeKpis(quotes, now) == Kpis(4, 67, 150.0)
  {
    var quotes := [
        SeedQuote("a", "", "c", 100.0, Ganhou, 100, now, now),
        SeedQuote("b", "", "c", 200.0, Ganhou, 100, now, now),
        SeedQuote("c", "", "c", 50.0, Perdeu, 0, now, now),
        SeedQuote("d", "", "c", 300.0, Enviado, 50, now, now)];
    assert quotes[..3] == quotes[..3];
    assert quotes[..3][..2] == quotes[..2] && quotes[..2][..1] == quotes[..1] && quotes[..1][..0] == [];
    assert CountStatus(quotes[..1], Ganhou) == 1;
    assert CountStatus(quotes[..2], Ganhou) == 2;
    assert CountStatus(quotes[..3], Ganhou) == 2;
    assert CountStatus(quotes, Ganhou) == 2;
    assert CountStatus(quotes, Perdeu) == 1;
    assert WinRate(2, 1) == 67;
    var since := WeekBefore(now);
    assert SentSince(quotes[..1], since) == 1;
    assert SentSince(quotes[..2], since) == 2;
    assert SentSince(quotes[..3], since) == 3;
    assert SentSince(quotes, since) == 4;
    assert PipelineValue(quotes[..3]) == 0.0 by {
      PipelineOnlyActive(quotes[..3]);
    }
    assert Weighted(quotes[3]) == 150.0;
    assert PipelineValue(quotes) == 150.0;
  }

  // ---------------------------------------------------------------------
  // The status pipeline
  // ---------------------------------------------------------------------

  /** The pipeline's columns, in order. */
  const Statuses: seq<QuoteStatus> := [Rascunho, Enviado, Negociacao, Ganhou, Perdeu]

  lemma StatusListed(s: QuoteStatus)
    ensures s in Statuses
  {
    match s
    case Rascunho => assert Statuses[0] == s;
    case Enviado => assert Statuses[1] == s;
    case Negociacao => assert Statuses[2] == s;
    case Ganhou => assert Statuses[3] == s;
    case Perdeu => assert Statuses[4] == s;
  }

  /** The quotes with the status, in list order. */
  function Bucket(quotes: seq<Quote>, status: QuoteStatus): (r: seq<Quote>)
    ensures |r| == CountStatus(quotes, status)
    ensures forall q :: q in r <==> q in quotes && q.status == status
  {
    if quotes == [] then []
    else
      var init := quotes[..|quotes| - 1];
      var last := quotes[|quotes| - 1];
      assert quotes == init + [last];
      Bucket(init, status) + if last.status == status then [last] else []
  }

  /** Filtering a concatenation filters each half and keeps them in order. */
  lemma {:induction false} BucketAppend(a: seq<Quote>, b: seq<Quote>, status: QuoteStatus)
    ensures Bucket(a + b, status) == Bucket(a, status) + Bucket(b, status)
  {
    if b == [] {
      assert a + b == a;
    } else {
      var init := b[..|b| - 1];
      assert (a + b)[..|a + b| - 1] == a + init;
      assert (a + b)[|a + b| - 1] == b[|b| - 1];
      BucketAppend(a, init, status);
    }
  }

  /** One quote lands in its own status's column and in no other. */
  lemma BucketSingle(q: Quote, status: QuoteStatus)
    ensures Bucket([q], status) == if q.status == status then [q] else []
  {
    assert [q][..0] == [];
  }

  /** quotesByStatus: one column per status. */
  function QuotesByStatus(quotes: seq<Quote>): (m: map<QuoteStatus, seq<Quote>>)
    ensures forall s :: s in m
    ensures forall s, q :: q in m[s] <==> q in quotes && q.status == s
  {
    var m := map s | s in Statuses :: Bucket(quotes, s);
    forall s ensures s in m && m[s] == Bucket(quotes, s) {
      StatusListed(s);
    }
    m
  }

  /** Each column of a concatenation is that column of the first part followed by that of the second. */
  lemma ColumnsAppend(a: seq<Quote>, b: seq<Quote>, status: QuoteStatus)
    ensures QuotesByStatus(a + b)[status] == QuotesByStatus(a)[status] + QuotesByStatus(b)[status]
  {
    StatusListed(status);
    BucketAppend(a, b, status);
  }

  /** The column sizes add up to the number of quotes. */
  lemma {:induction false} BucketsPartition(quotes: seq<Quote>)
    ensures var m := QuotesByStatus(quotes);
      |m[Rascunho]| + |m[Enviado]| + |m[Negociacao]| + |m[Ganhou]| + |m[Perdeu]| == |quotes|
  {
    CountsPartition(quotes);
  }

  lemma {:induction false} CountsPartition(quotes: seq<Quote>)
    ensures CountStatus(quotes, Rascunho) + CountStatus(quotes, Enviado) + CountStatus(quotes, Negociacao)
      + CountStatus(quotes, Ganhou) + CountStatus(quotes, Perdeu) == |quotes|
  {
    if quotes != [] {
      CountsPartition(quotes[..|quotes| - 1]);
    }
  }

  /** `find` by id: the first quote with the id. */
  function FindQuote(quotes: seq<Quote>, id: string): (r: Option<Quote>)
    ensures r.None? <==> !HasQuoteId(quotes, id)
    ensures r.Some? ==> r.value in quotes && r.value.id == id
    ensures r.Some? ==> var i := FindIndex(quotes, id); 0 <= i < |quotes| && r.value == quotes[i]
  {
    var i := FindIndex(quotes, id);
    if i >= 0 then Some(quotes[i]) else None
  }

  /** handleStatusChange: the update it sends, the first quote with the id with only its status set; none for an unknown id. */
  function StatusChange(quotes: seq<Quote>, id: string, newStatus: QuoteStatus): (r: Option<Quote>)
    ensures r.None? <==> !HasQuoteId(quotes, id)
    ensures r.Some? ==> exists k :: 0 <= k < |quotes| && r.value == quotes[k].(status := newStatus) && quotes[k].id == id
                                    && forall j :: 0 <= j < k ==> quotes[j].id != id
  {
    match FindQuote(quotes, id)
    case None => None
    case Some(q) =>
      var k := FindIndex(quotes, id);
      assert forall j :: 0 <= j < k ==> quotes[j].id != id;
      Some(q.(status := newStatus))
  }

  /** handleUpdateQuote's list: every quote with the updated quote's id replaced by it. */
  function ReplaceById(quotes: seq<Quote>, updated: Quote): (r: seq<Quote>)
    ensures |r| == |quotes|
    ensures forall k :: 0 <= k < |quotes| ==> r[k] == if quotes[k].id == updated.id then updated else quotes[k]
  {
    seq(|quotes|, k requires 0 <= k < |quotes| => if quotes[k].id == updated.id then updated else quotes[k])
  }

  /** An update for an id not in the list changes nothing. */
  lemma ReplaceAbsent(quotes: seq<Quote>, updated: Quote)
    requires !HasQuoteId(quotes, updated.id)
    ensures ReplaceById(quotes, updated) == quotes
  {
  }

  /** With distinct ids, the dashboard's update and the preview's save agree on a quote already listed. */
  lemma ReplaceIsUpsert(quotes: seq<Quote>, updated: Quote)
    requires UniqueIds(quotes) && HasQuoteId(quotes, updated.id)
    ensures ReplaceById(quotes, updated) == Upsert(quotes, updated)
  {
    var i := FindIndex(quotes, updated.id);
    forall k | 0 <= k < |quotes| && k != i ensures quotes[k].id != updated.id {
      if k < i { } else { assert quotes[i].id != quotes[k].id; }
    }
  }

  /** A status change from the pipeline: the update sent by handleStatusChange, applied by handleUpdateQuote. */
  function ChangeStatus(quotes: seq<Quote>, id: string, newStatus: QuoteStatus): (r: seq<Quote>)
    ensures |r| == |quotes|
  {
    match StatusChange(quotes, id, newStatus)
    case None => quotes
    case Some(u) => ReplaceById(quotes, u)
  }

  /**
   * With distinct ids, any status can be set from any status: the quote with
   * the id gets the new status, nothing else about it or the list changes;
   * an unknown id changes nothing.
   */
  lemma ChangeStatusEffect(quotes: seq<Quote>, id: string, newStatus: QuoteStatus)
    requires UniqueIds(quotes)
    ensures forall k :: 0 <= k < |quotes| ==>
      ChangeStatus(quotes, id, newStatus)[k] == if quotes[k].id == id then quotes[k].(status := newStatus) else quotes[k]
  {
    if HasQuoteId(quotes, id) {
      var i := FindIndex(quotes, id);
    }
  }

  /**
   * With a repeated id, a status change copies the first quote with that id
   * over every later one.
   */
  lemma ChangeStatusCopiesFirst(quotes: seq<Quote>, i: nat, j: nat, newStatus: QuoteStatus)
    requires i < j < |quotes| && quotes[i].id == quotes[j].id
    requires forall k :: 0 <= k < i ==> quotes[k].id != quotes[i].id
    ensures ChangeStatus(quotes, quotes[i].id, newStatus)[j] == quotes[i].(status := newStatus)
  {
    assert FindIndex(quotes, quotes[i].id) == i;
  }

  // ---------------------------------------------------------------------
  // The dashboard view
  // ---------------------------------------------------------------------

  /** The dashboard's state: the data it loaded, kept in step with the store. */
  class DashboardView {
    const store: LocalStorage
    var data: DashboardData

    /** The figures shown on the home page at instant `now`. */
    function Figures(now: int): (k: Kpis)
      reads this
      ensures k.winRate <= 100 && k.sentLast7Days <= |data.quotes|
    {
      ComputeKpis(data.quotes, now)
    }

    /** Mounting loads the data, storing the example data when there is none. */
    constructor (store: LocalStorage)
      modifies store`dashboardData
      ensures this.store == store
      ensures Loaded(data, store.dashboardData) == Load(old(store.dashboardData))
    {
      this.store := store;
      var d := GetDashboardData(store);
      this.data := d;
    }

    /** A `storage` event reloads the data. */
    method OnStorageChange()
      modifies this`data, store`dashboardData
      ensures Loaded(data, store.dashboardData) == Load(old(store.dashboardData))
    {
      var d := GetDashboardData(store);
      data := d;
    }

    /** handleUpdateQuote: the quote list with the update applied, kept and written to the store. */
    method HandleUpdateQuote(updated: Quote)
      modifies this`data, store`dashboardData
      ensures data == old(data).(quotes := ReplaceById(old(data).quotes, updated))
      ensures store.dashboardData == Some(Stored(data))
    {
      var updatedQuotes := ReplaceById(data.quotes, updated);
      var newData := data.(quotes := updatedQuotes);
      data := newData;
      SaveDashboardData(store, newData);
    }

    /** A status picked in the pipeline column of a quote. */
    method HandleStatusChange(id: string, newStatus: QuoteStatus)
      modifies this`data, store`dashboardData
      ensures data.quotes == ChangeStatus(old(data.quotes), id, newStatus)
      ensures data.leads == old(data.leads) && data.clients == old(data.clients)
      ensures data.tasks == old(data.tasks) && data.financials == old(data.financials)
      ensures HasQuoteId(old(data.quotes), id) ==> store.dashboardData == Some(Stored(data))
      ensures !HasQuoteId(old(data.quotes), id) ==> unchanged(this, store)
    {
      var toUpdate := FindQuote(data.quotes, id);
      if toUpdate.Some? {
        HandleUpdateQuote(toUpdate.value.(status := newStatus));
      }
    }
  }
}

=== FILE: gemini_service.dfy ===
/**
 * The AI service's reply handling: the reply text is trimmed and parsed, its
 * shape checked, and an accepted reply handed on unchanged. Every failure on
 * the way (the call, the parse, the shape) reaches the caller as one message.
 */
module GeminiService {
  import opened Wrappers
  import opened Strings
  import opened Json
  import opened Types
  import QuoteForm

  /** The only error the caller ever sees. */
  const FailureMessage := "Não foi possível obter a sugestão da IA. Tente novamente."

  /**
   * The shape accepted: a truthy value whose `intro_mensagens` is an array
   * (of anything, possibly empty), whose `quoteDetails` is truthy with a
   * string `description` and a number `price`, and whose `mensagem_final`
   * is a string.
   */
  predicate ValidShape(v: Option<Json>)
    ensures ValidShape(v) ==> v.Some? && v.value.JObj?
  {
    IsTruthy(v)
    && IsArray(Get(v, "intro_mensagens"))
    && IsTruthy(Get(v, "quoteDetails"))
    && IsString(Get(Get(v, "quoteDetails"), "description"))
    && IsNumber(Get(Get(v, "quoteDetails"), "price"))
    && IsString(Get(v, "mensagem_final"))
  }

  /** The accepted value read as the response record. */
  function AsResponse(v: Json): (r: AISuggestionResponse)
    requires ValidShape(Some(v))
    ensures Get(Some(v), "intro_mensagens") == Some(JArr(r.introMensagens))
    ensures Get(Get(Some(v), "quoteDetails"), "description") == Some(JStr(r.quoteDetails.description))
    ensures Get(Get(Some(v), "quoteDetails"), "price") == Some(JNum(r.quoteDetails.price))
    ensures Get(Some(v), "mensagem_final") == Some(JStr(r.mensagemFinal))
  {
    var details := Get(Some(v), "quoteDetails");
    AISuggestionResponse(
      Get(Some(v), "intro_mensagens").value.elems,
      QuoteDetails(Get(details, "description").value.s, Get(details, "price").value.n),
      Get(Some(v), "mensagem_final").value.s)
  }

  /**
   * generateQuoteDetails after the call: `reply` is the reply text, `None`
   * when the call failed or carried no text; `parse` is `JSON.parse`, `None`
   * when the text is not JSON.
   */
  function GenerateQuoteDetails(reply: Option<string>, parse: string -> Option<Json>): (r: Result<AISuggestionResponse, string>)
    ensures r.Failure? ==> r.error == FailureMessage
    ensures r.Success? <==> reply.Some? && ValidShape(parse(Trim(reply.value)))
    ensures r.Success? ==> var v := parse(Trim(reply.value));
      Get(v, "intro_mensagens") == Some(JArr(r.value.introMensagens))
      && Get(Get(v, "quoteDetails"), "description") == Some(JStr(r.value.quoteDetails.description))
      && Get(Get(v, "quoteDetails"), "price") == Some(JNum(r.value.quoteDetails.price))
      && Get(v, "mensagem_final") == Some(JStr(r.value.mensagemFinal))
  {
    match reply
    case None => Failure(FailureMessage)
    case Some(text) =>
      var parsed := parse(Trim(text));
      if ValidShape(parsed) then Success(AsResponse(parsed.value)) else Failure(FailureMessage)
  }

  /** The reply as the service would write it. */
  function ToJson(res: AISuggestionResponse): Json
  {
    JObj([
      Member("intro_mensagens", JArr(res.introMensagens)),
      Member("quoteDetails", JObj([
        Member("description", JStr(res.quoteDetails.description)),
        Member("price", JNum(res.quoteDetails.price))])),
      Member("mensagem_final", JStr(res.mensagemFinal))])
  }

  /**
   * Every response written in the expected shape is accepted and handed on
   * unchanged, whatever its intro messages are, an empty list included.
   */
  lemma AcceptedUnchanged(res: AISuggestionResponse)
    ensures ValidShape(Some(ToJson(res)))
    ensures AsResponse(ToJson(res)) == res
  {
    var v := ToJson(res);
    var details := v.members[1].value;
    var ms := v.members;
    var ds := details.members;
    LastIndexOfThree(ms[0], ms[1], ms[2], "intro_mensagens");
    LastIndexOfThree(ms[0], ms[1], ms[2], "quoteDetails");
    LastIndexOfThree(ms[0], ms[1], ms[2], "mensagem_final");
    LastIndexOfTwo(ds[0], ds[1], "description");
    LastIndexOfTwo(ds[0], ds[1], "price");
  }

  lemma LastIndexOfTwo(a: Member, b: Member, key: string)
    ensures LastIndex([a, b], key) == if b.key == key then 1 else if a.key == key then 0 else -1
  {
    assert [a, b][..1] == [a];
    assert [a][..0] == [];
  }

  lemma LastIndexOfThree(a: Member, b: Member, c: Member, key: string)
    ensures LastIndex([a, b, c], key) == if c.key == key then 2 else if b.key == key then 1 else if a.key == key then 0 else -1
  {
    assert [a, b, c][..2] == [a, b];
    LastIndexOfTwo(a, b, key);
  }

  /** A reply that parses to the expected shape comes back as that response. */
  lemma GenerateAccepts(text: string, parse: string -> Option<Json>, res: AISuggestionResponse)
    requires parse(Trim(text)) == Some(ToJson(res))
    ensures GenerateQuoteDetails(Some(text), parse) == Success(res)
  {
    AcceptedUnchanged(res);
  }

  /** A value that is not an object, such as a bare array or string, is refused. */
  lemma OnlyObjectsAccepted(v: Json)
    requires !v.JObj?
    ensures !ValidShape(Some(v))
  {
  }

  /** Whitespace around the reply text does not change the outcome. */
  lemma PaddingIgnored(before: string, text: string, after: string, parse: string -> Option<Json>)
    requires AllWhitespace(before) && AllWhitespace(after)
    requires text != [] && !IsJsWhitespace(text[0])
    ensures GenerateQuoteDetails(Some(before + text + after), parse) == GenerateQuoteDetails(Some(text), parse)
  {
    TrimPadded(before, text, after);
  }

  lemma TrimPadded(before: string, text: string, after: string)
    requires AllWhitespace(before) && AllWhitespace(after)
    requires text != [] && !IsJsWhitespace(text[0])
    ensures Trim(before + text + after) == Trim(text)
  {
    var padded := before + text + after;
    assert padded == before + (text + after);
    TrimStartSkips(before, text + after);
    StartsSolid(text + after);
    StartsSolid(text);
    TrimEndSkips(text, after);
    calc {
      Trim(padded);
      TrimEnd(TrimStart(text + after));
      TrimEnd(text + after);
      TrimEnd(text);
      TrimEnd(TrimStart(text));
      Trim(text);
    }
  }

  /** The reply as the quote form receives it: a response, or an error carrying its message. */
  function ForForm(r: Result<AISuggestionResponse, string>): (f: QuoteForm.Reply)
    ensures f.Success? <==> r.Success?
    ensures f.Success? ==> f.value == r.value
    ensures f.Failure? ==> f.error == Some(r.error)
  {
    match r
    case Success(res) => Success(res)
    case Failure(msg) => Failure(Some(msg))
  }

  /** Whatever went wrong, the form shows the one failure message and stops loading. */
  lemma FormShowsOneMessage(s: QuoteForm.FormState, reply: Option<string>, parse: string -> Option<Json>)
    requires GenerateQuoteDetails(reply, parse).Failure?
    ensures QuoteForm.Receive(s, ForForm(GenerateQuoteDetails(reply, parse))).error == Some(FailureMessage)
    ensures !QuoteForm.Receive(s, ForForm(GenerateQuoteDetails(reply, parse))).isLoading
  {
  }
}

=== FILE: item_edits.dfy ===
/**
 * The item list edits of the quote form: a field edit is a `map` over the
 * items keyed by `id`, adding appends one blank item, removing is a `filter`.
 * Also the readers of the quantity and price inputs, and the plain input
 * handlers of the form. Every edit is handed to the application's
 * derivation (`App.QuoteChange`), which recomputes total and title.
 */
module ItemEdits {
  import opened Wrappers
  import opened Strings
  import opened Types
  import opened App

  // ---------------------------------------------------------------------
  // Quantity and price readers
  // ---------------------------------------------------------------------

  /** `parseInt(text, 10) || 1`: NaN and 0 are both falsy and give 1. */
  function QuantityFromText(text: string): (n: int)
    ensures n != 0
    ensures ParseIntPrefix(text).None? ==> n == 1
    ensures ParseIntPrefix(text).Some? && ParseIntPrefix(text).value == 0 ==> n == 1
    ensures ParseIntPrefix(text).Some? && ParseIntPrefix(text).value != 0 ==> n == ParseIntPrefix(text).value
  {
    match ParseIntPrefix(text)
    case None => 1
    case Some(v) => if v == 0 then 1 else v
  }

  /**
   * Whatever surrounds it, a typed number (whitespace, an optional sign,
   * digits, then no digit) is stored with its sign; only a zero becomes 1.
   */
  lemma QuantityOfTyped(ws: string, sign: string, digits: string, rest: string)
    requires AllWhitespace(ws) && (sign == "" || sign == "+" || sign == "-")
    requires digits != [] && AllDigits(digits) && (rest == [] || !IsDigit(rest[0]))
    ensures var v: int := DigitsToNat(digits);
      QuantityFromText(ws + sign + digits + rest) == if v == 0 then 1 else if sign == "-" then -v else v
  {
    ParseIntSigned(ws, sign, digits, rest);
  }

  /** Typing the decimal form of a positive number into the quantity field stores that number. */
  lemma QuantityRoundTrip(n: nat)
    requires n >= 1
    ensures QuantityFromText(NatToString(n)) == n
  {
    ParseIntOfDigits(NatToString(n));
    NatToStringRoundTrip(n);
  }

  /** An empty or zero quantity field stores 1. */
  lemma QuantityFallback()
    ensures QuantityFromText("") == 1
    ensures QuantityFromText("0") == 1
  {
    assert DigitPrefix(Unsigned(TrimStart(""))) == "";
    var zero := NatToString(0);
    ParseIntOfDigits(zero);
    NatToStringRoundTrip(0);
    assert zero == "0";
  }

  /** `value.replace(/[^0-9,]/g, '')`: only digits and commas are kept. */
  function SanitizePrice(s: string): (r: string)
    ensures |r| <= |s|
    ensures forall i :: 0 <= i < |r| ==> IsDigit(r[i]) || r[i] == ','
  {
    if s == [] then []
    else if IsDigit(s[0]) || s[0] == ',' then [s[0]] + SanitizePrice(s[1..])
    else SanitizePrice(s[1..])
  }

  /** A single character is kept exactly when it is a digit or a comma; with SanitizePriceConcat this fixes every result. */
  lemma SanitizePriceChar(c: char)
    ensures SanitizePrice([c]) == if IsDigit(c) || c == ',' then [c] else []
  {
    assert [c][1..] == [];
  }

  lemma {:induction false} SanitizePriceConcat(a: string, b: string)
    ensures SanitizePrice(a + b) == SanitizePrice(a) + SanitizePrice(b)
  {
    if a == [] {
      assert a + b == b;
    } else {
      assert (a + b)[1..] == a[1..] + b;
      SanitizePriceConcat(a[1..], b);
    }
  }

  /** Digits and commas pass through unchanged, so sanitising twice is sanitising once. */
  lemma {:induction false} SanitizePriceKeeps(s: string)
    requires forall i :: 0 <= i < |s| ==> IsDigit(s[i]) || s[i] == ','
    ensures SanitizePrice(s) == s
  {
    if s != [] {
      SanitizePriceKeeps(s[1..]);
    }
  }

  lemma SanitizePriceIdempotent(s: string)
    ensures SanitizePrice(SanitizePrice(s)) == SanitizePrice(s)
  {
    SanitizePriceKeeps(SanitizePrice(s));
  }

  /** `value.replace(/\./g, '')`. */
  function RemoveDots(s: string): (r: string)
    ensures '.' !in r
    ensures |r| <= |s|
  {
    if s == [] then []
    else if s[0] == '.' then RemoveDots(s[1..])
    else [s[0]] + RemoveDots(s[1..])
  }

  lemma {:induction false} RemoveDotsKeeps(s: string)
    requires '.' !in s
    ensures RemoveDots(s) == s
  {
    if s != [] {
      RemoveDotsKeeps(s[1..]);
    }
  }

  /** `value.replace(',', '.')`: only the first comma becomes a point. */
  function ReplaceFirstComma(s: string): (r: string)
    ensures |r| == |s|
    ensures ',' !in s ==> r == s
  {
    if s == [] then []
    else if s[0] == ',' then ['.'] + s[1..]
    else [s[0]] + ReplaceFirstComma(s[1..])
  }

  lemma {:induction false} ReplaceFirstCommaAfter(a: string, b: string)
    requires ',' !in a
    ensures ReplaceFirstComma(a + "," + b) == a + "." + b
  {
    if a == [] {
      assert a + "," + b == [','] + b;
    } else {
      assert (a + "," + b)[1..] == a[1..] + "," + b;
      ReplaceFirstCommaAfter(a[1..], b);
    }
  }

  /**
   * The price stored by handleItemChange: dots removed, the first comma made
   * the decimal point, parsed, and 0 when that gives NaN.
   */
  function PriceFromText(text: string): (p: real)
    ensures p >= 0.0
    ensures ParseDecimalPrefix(ReplaceFirstComma(RemoveDots(text))).None? ==> p == 0.0
  {
    match ParseDecimalPrefix(ReplaceFirstComma(RemoveDots(text)))
    case None => 0.0
    case Some(v) => v
  }

  /** Digits grouped by three from the right with `.`, as the pt-BR display writes a whole part. */
  function Grouped(digits: string): (r: string)
    decreases |digits|
  {
    if |digits| <= 3 then digits else Grouped(digits[..|digits| - 3]) + "." + digits[|digits| - 3..]
  }

  lemma {:induction false} SanitizeGrouped(digits: string)
    requires AllDigits(digits)
    ensures SanitizePrice(Grouped(digits)) == digits
    decreases |digits|
  {
    if |digits| <= 3 {
      SanitizePriceKeeps(digits);
    } else {
      var a, b := digits[..|digits| - 3], digits[|digits| - 3..];
      SanitizeGrouped(a);
      SanitizePriceConcat(Grouped(a) + ".", b);
      SanitizePriceConcat(Grouped(a), ".");
      SanitizePriceKeeps(b);
      assert SanitizePrice(".") == [];
      assert a + b == digits;
    }
  }

  /** The price field's pt-BR display of `whole` reais and `cents` centavos, e.g. `1.234,56`. */
  function PtBrAmount(whole: nat, cents: nat): string
    requires cents < 100
  {
    Grouped(NatToString(whole)) + "," + Pad2(cents)
  }

  /** Sanitising the display keeps the whole part's digits, the comma and the cents. */
  lemma SanitizeDisplay(whole: nat, cents: nat)
    requires cents < 100
    ensures SanitizePrice(PtBrAmount(whole, cents)) == NatToString(whole) + "," + Pad2(cents)
  {
    var w, c := NatToString(whole), Pad2(cents);
    SanitizePriceConcat(Grouped(w) + ",", c);
    SanitizePriceConcat(Grouped(w), ",");
    SanitizeGrouped(w);
    SanitizePriceKeeps(",");
    SanitizePriceKeeps(c);
  }

  /** Dot removal leaves digits and a comma alone, and the comma becomes the point. */
  lemma CommaBecomesPoint(w: string, c: string)
    requires AllDigits(w) && AllDigits(c)
    ensures ReplaceFirstComma(RemoveDots(w + "," + c)) == w + "." + c
  {
    var s := w + "," + c;
    assert '.' !in s by {
      forall i | 0 <= i < |s| ensures s[i] != '.' {
        if i < |w| { assert s[i] == w[i]; }
        else if i > |w| { assert s[i] == c[i - |w| - 1]; }
      }
    }
    RemoveDotsKeeps(s);
    assert ',' !in w by { forall i | 0 <= i < |w| ensures w[i] != ',' { assert IsDigit(w[i]); } }
    ReplaceFirstCommaAfter(w, c);
  }

  /** The pieces the decimal reader finds in digits, a point and digits. */
  lemma PointDecimalParts(w: string, c: string)
    requires AllDigits(w) && AllDigits(c)
    ensures DigitPrefix(w + "." + c) == w
    ensures (w + "." + c)[|w|..] == "." + c
    ensures DigitPrefix(c) == c
  {
    assert w + "." + c == w + ("." + c);
    DigitPrefixConcat(w, "." + c);
    DigitPrefixAll(c);
  }

  /** Digits, a point and digits read as the decimal number they spell. */
  lemma ParsePointDecimal(w: string, c: string)
    requires AllDigits(w) && AllDigits(c) && |w| + |c| >= 1
    ensures ParseDecimalPrefix(w + "." + c) == Some(DecimalValue(w, c))
  {
    PointDecimalParts(w, c);
    assert ("." + c)[1..] == c;
  }

  /** Digits, a comma and digits read as a decimal number with the comma as its point. */
  lemma PriceOfCommaDecimal(w: string, c: string)
    requires AllDigits(w) && AllDigits(c)
    ensures PriceFromText(w + "," + c) == DecimalValue(w, c)
  {
    CommaBecomesPoint(w, c);
    if |w| + |c| >= 1 {
      ParsePointDecimal(w, c);
    } else {
      assert w + "." + c == ".";
    }
  }

  /** Digits alone read as the whole number they spell, as when 150 is typed into the price field. */
  lemma PriceOfDigits(w: string)
    requires AllDigits(w) && w != []
    ensures ParseDecimalPrefix(w) == Some(DigitsToNat(w) as real)
    ensures PriceFromText(w) == DigitsToNat(w) as real
  {
    DigitPrefixAll(w);
    assert w[|w|..] == [];
    assert DecimalValue(w, []) == DigitsToNat(w) as real;
    assert '.' !in w && ',' !in w by {
      forall i | 0 <= i < |w| ensures w[i] != '.' && w[i] != ',' {
        assert IsDigit(w[i]);
      }
    }
    RemoveDotsKeeps(w);
  }

  /**
   * Editing the displayed price without changing it stores the same amount:
   * the grouping dots are dropped and the comma is read as the decimal point.
   */
  lemma PriceDisplayRoundTrip(whole: nat, cents: nat)
    requires cents < 100
    ensures PriceFromText(SanitizePrice(PtBrAmount(whole, cents))) == whole as real + cents as real / 100.0
  {
    SanitizeDisplay(whole, cents);
    PriceOfCommaDecimal(NatToString(whole), Pad2(cents));
    NatToStringRoundTrip(whole);
    assert Pow10(2) == 100;
  }

  // ---------------------------------------------------------------------
  // Item list edits
  // ---------------------------------------------------------------------

  /** The item fields the form edits, with the value already read from the input. */
  datatype ItemEdit = SetDescription(text: string) | SetQuantity(quantity: int) | SetPrice(price: real)

  datatype ItemField = Description | Quantity | Price

  /** The edit handleItemChange makes for a field and the text typed into it. */
  function EditFromText(field: ItemField, value: string): (e: ItemEdit)
    ensures field == Description ==> e == SetDescription(value)
    ensures field == Quantity ==> e.SetQuantity? && e.quantity != 0
    ensures field == Price ==> e.SetPrice? && e.price >= 0.0
  {
    match field
    case Description => SetDescription(value)
    case Quantity => SetQuantity(QuantityFromText(value))
    case Price => SetPrice(PriceFromText(value))
  }

  function ApplyEdit(item: QuoteItem, e: ItemEdit): (r: QuoteItem)
    ensures r.id == item.id
  {
    match e
    case SetDescription(text) => item.(description := text)
    case SetQuantity(n) => item.(quantity := Num(n as real))
    case SetPrice(p) => item.(price := Num(p))
  }

  /** The `map` of handleItemChange: every item with the given id is edited; the rest stay as they are. */
  function UpdateItem(items: seq<QuoteItem>, id: string, e: ItemEdit): (r: seq<QuoteItem>)
    ensures |r| == |items|
    ensures forall k :: 0 <= k < |items| ==> r[k].id == items[k].id
    ensures forall k :: 0 <= k < |items| && items[k].id != id ==> r[k] == items[k]
    ensures forall k :: 0 <= k < |items| && items[k].id == id ==> r[k] == ApplyEdit(items[k], e)
  {
    if items == [] then []
    else [if items[0].id == id then ApplyEdit(items[0], e) else items[0]] + UpdateItem(items[1..], id, e)
  }

  /** Editing an id no item has changes nothing. */
  lemma UpdateItemAbsent(items: seq<QuoteItem>, id: string, e: ItemEdit)
    requires !HasItemId(items, id)
    ensures UpdateItem(items, id, e) == items
  {
  }

  /** Repeating the same edit changes nothing more. */
  lemma UpdateItemIdempotent(items: seq<QuoteItem>, id: string, e: ItemEdit)
    ensures UpdateItem(UpdateItem(items, id, e), id, e) == UpdateItem(items, id, e)
  {
  }

  /** The map works item by item, so it distributes over concatenation. */
  lemma UpdateItemAppend(a: seq<QuoteItem>, b: seq<QuoteItem>, id: string, e: ItemEdit)
    ensures UpdateItem(a + b, id, e) == UpdateItem(a, id, e) + UpdateItem(b, id, e)
  {
  }

  /** The blank item handleAddItem appends. */
  function NewItem(id: string): QuoteItem
  {
    QuoteItem(id, "", Num(1.0), Num(0.0))
  }

  /** handleAddItem: the existing items, then one blank item. */
  function AddItem(items: seq<QuoteItem>, newId: string): (r: seq<QuoteItem>)
    ensures |r| == |items| + 1 && r[..|items|] == items
    ensures r[|items|] == QuoteItem(newId, "", Num(1.0), Num(0.0))
  {
    items + [NewItem(newId)]
  }

  /** handleRemoveItem: the `filter` keeping the items whose id differs. */
  function RemoveItem(items: seq<QuoteItem>, id: string): (r: seq<QuoteItem>)
    ensures |r| <= |items|
    ensures forall x :: x in r <==> x in items && x.id != id
    ensures !HasItemId(r, id)
  {
    if items == [] then []
    else if items[0].id == id then RemoveItem(items[1..], id)
    else [items[0]] + RemoveItem(items[1..], id)
  }

  /** The filter keeps the order: it works on each part of a concatenation separately. */
  lemma {:induction false} RemoveItemAppend(a: seq<QuoteItem>, b: seq<QuoteItem>, id: string)
    ensures RemoveItem(a + b, id) == RemoveItem(a, id) + RemoveItem(b, id)
  {
    if a == [] {
      assert a + b == b;
    } else {
      assert (a + b)[1..] == a[1..] + b;
      RemoveItemAppend(a[1..], b, id);
    }
  }

  lemma {:induction false} RemoveItemAbsent(items: seq<QuoteItem>, id: string)
    requires !HasItemId(items, id)
    ensures RemoveItem(items, id) == items
  {
    if items != [] {
      assert !HasItemId(items[1..], id) by {
        forall k | 0 <= k < |items| - 1 ensures items[1..][k].id != id { assert items[1..][k] == items[k + 1]; }
      }
      RemoveItemAbsent(items[1..], id);
    }
  }

  /** Removing the item just added under a fresh id gives back the list as it was. */
  lemma AddThenRemove(items: seq<QuoteItem>, newId: string)
    requires !HasItemId(items, newId)
    ensures RemoveItem(AddItem(items, newId), newId) == items
  {
    RemoveItemAppend(items, [NewItem(newId)], newId);
    RemoveItemAbsent(items, newId);
    assert RemoveItem([NewItem(newId)], newId) == [];
  }

  /** A blank item is worth nothing, so adding one leaves the derived total as it was. */
  lemma AddItemKeepsTotal(q: Quote, newId: string)
    ensures QuoteChange(q.(items := AddItem(q.items, newId))).total == QuoteChange(q).total
  {
    SumAppend(q.items, NewItem(newId));
  }

  // ---------------------------------------------------------------------
  // The form's handlers
  // ---------------------------------------------------------------------

  /** handleItemChange: the quote handed to the derivation after an item field edit. */
  function ItemChange(q: Quote, id: string, field: ItemField, value: string): (r: Quote)
    ensures r.items == UpdateItem(q.items, id, EditFromText(field, value))
    ensures r.(items := q.items) == q
  {
    q.(items := UpdateItem(q.items, id, EditFromText(field, value)))
  }

  /** handlePriceInputChange: the text is sanitised before handleItemChange reads it. */
  function PriceInputChange(q: Quote, id: string, value: string): (r: Quote)
    ensures r == ItemChange(q, id, Price, SanitizePrice(value))
  {
    ItemChange(q, id, Price, SanitizePrice(value))
  }

  /** The plain inputs of the form, the logo upload and the date input included (its value already read as a time stamp). */
  datatype InputEdit =
    | ProviderName(text: string)
    | ProviderContact(text: string)
    | ClientName(text: string)
    | ClientContact(text: string)
    | Validity(time: int)
    | Probability(percent: int)
    | Logo(dataUrl: string)

  /** handleInputChange and handleLogoUpload: the named field takes the value; nothing else changes. */
  function InputChange(q: Quote, e: InputEdit): (r: Quote)
    ensures r.items == q.items && r.id == q.id && r.status == q.status && r.createdAt == q.createdAt
    ensures r.title == q.title && r.total == q.total
    ensures r.providerName == if e.ProviderName? then e.text else q.providerName
    ensures r.providerContact == if e.ProviderContact? then e.text else q.providerContact
    ensures r.clientName == if e.ClientName? then e.text else q.clientName
    ensures r.clientContact == if e.ClientContact? then e.text else q.clientContact
    ensures r.validity == if e.Validity? then e.time else q.validity
    ensures r.probability == if e.Probability? then e.percent else q.probability
    ensures r.providerLogo == if e.Logo? then Some(e.dataUrl) else q.providerLogo
  {
    match e
    case ProviderName(t) => q.(providerName := t)
    case ProviderContact(t) => q.(providerContact := t)
    case ClientName(t) => q.(clientName := t)
    case ClientContact(t) => q.(clientContact := t)
    case Validity(t) => q.(validity := t)
    case Probability(p) => q.(probability := p)
    case Logo(url) => q.(providerLogo := Some(url))
  }

  /** Which form field an edit names. */
  function FieldOf(e: InputEdit): nat
  {
    match e
    case ProviderName(_) => 0
    case ProviderContact(_) => 1
    case ClientName(_) => 2
    case ClientContact(_) => 3
    case Validity(_) => 4
    case Probability(_) => 5
    case Logo(_) => 6
  }

  /** Editing the same field twice keeps only the later value. */
  lemma InputChangeLastWins(q: Quote, a: InputEdit, b: InputEdit)
    requires FieldOf(a) == FieldOf(b)
    ensures InputChange(InputChange(q, a), b) == InputChange(q, b)
  {
  }

  /** Edits of different fields can be made in either order. */
  lemma InputChangeCommutes(q: Quote, a: InputEdit, b: InputEdit)
    requires FieldOf(a) != FieldOf(b)
    ensures InputChange(InputChange(q, a), b) == InputChange(InputChange(q, b), a)
  {
  }

  /** Only the client's name retitles the quote; no plain input moves the total. */
  lemma InputChangeDerived(q: Quote, e: InputEdit)
    ensures QuoteChange(InputChange(q, e)).total == QuoteChange(q).total
    ensures e.ClientName? ==> QuoteChange(InputChange(q, e)).title == TitlePrefix + Or(e.text, DefaultClientTitle)
    ensures !e.ClientName? ==> QuoteChange(InputChange(q, e)).title == QuoteChange(q).title
  {
  }
}

=== FILE: json.dfy ===
/**
 * JSON values as `JSON.parse` hands them to the program, plus the `Date`
 * objects a reviver may substitute, JavaScript truthiness and property access.
 */
module Json {
  import opened Wrappers

  datatype Json =
    | JNull
    | JBool(b: bool)
    | JNum(n: real)
    | JStr(s: string)
    | JArr(elems: seq<Json>)
    | JObj(members: seq<Member>)
      /** A `Date` built by a reviver; `None` is an invalid date (`getTime()` is NaN). */
    | JDate(time: Option<int>)

  datatype Member = Member(key: string, value: Json)

  /** JavaScript truthiness of a parsed value (JSON has no NaN). */
  predicate Truthy(v: Json)
  {
    match v
    case JNull => false
    case JBool(b) => b
    case JNum(n) => n != 0.0
    case JStr(s) => s != ""
    case _ => true
  }

  /** Index of the last member named `key`, or -1: `JSON.parse` keeps the last duplicate. */
  function LastIndex(ms: seq<Member>, key: string): (i: int)
    ensures -1 <= i < |ms|
    ensures i >= 0 ==> ms[i].key == key
    ensures forall j :: i < j < |ms| ==> ms[j].key != key
  {
    if ms == [] then -1
    else if ms[|ms| - 1].key == key then |ms| - 1
    else LastIndex(ms[..|ms| - 1], key)
  }

  /** `v.key`: `None` is `undefined`; only objects carry the keys used here. */
  function Get(v: Option<Json>, key: string): (r: Option<Json>)
    ensures r.Some? ==> v.Some? && v.value.JObj?
  {
    if v.Some? && v.value.JObj? then
      var i := LastIndex(v.value.members, key);
      if i >= 0 then Some(v.value.members[i].value) else None
    else None
  }

  predicate IsString(v: Option<Json>) { v.Some? && v.value.JStr? }

  predicate IsNumber(v: Option<Json>) { v.Some? && v.value.JNum? }

  predicate IsArray(v: Option<Json>) { v.Some? && v.value.JArr? }

  predicate IsTruthy(v: Option<Json>) { v.Some? && Truthy(v.value) }
}

=== FILE: quote_form.dfy ===
/**
 * The quote form's generation flow: choosing an area and a service, the
 * generate button, the reply of the suggestion service, and the staged
 * reveal driven by the form's timers — "thinking" messages shown one per
 * tick, a settle tick that appends one blank item, and a typing loop that
 * writes the suggested description into it one character per tick.
 *
 * Each timer firing is one `Next` step; the time between firings is not
 * modelled. `QuoteForm.QuoteForm` holds the same state in fields and its
 * methods are proved to move it exactly as the pure functions say.
 */
module QuoteForm {
  import opened Wrappers
  import opened Strings
  import opened Json
  import opened Types
  import opened App
  import opened ItemEdits

  const SelectionError := "Por favor, selecione a área de atuação e o tipo de serviço."
  const UnknownError := "Ocorreu um erro desconhecido."
  const WaitMessage := "Aguarde um momento..."

  /** The areas offered in the first select, with the services of each. */
  const ServiceCategories: map<string, seq<string>> := map[
    "Construção civil" := ["Construção de muro", "Reboco e acabamento", "Colocação de piso", "Pintura de parede", "Assentamento de azulejo"],
    "Manutenção elétrica e hidráulica" := ["Instalação de ponto elétrico", "Troca de fiação", "Reparo de vazamento", "Instalação de chuveiro", "Instalação de louças sanitárias"],
    "Mecânica e automotiva" := ["Troca de óleo e filtros", "Alinhamento e balanceamento", "Revisão de freios", "Funilaria e pintura", "Troca de amortecedor"],
    "Marcenaria e serralheria" := ["Fabricação de móveis sob medida", "Instalação de portas", "Montagem de armários", "Fabricação de portão de ferro"],
    "Serviços residenciais" := ["Jardinagem e paisagismo", "Limpeza de piscina", "Faxina geral", "Montagem de móveis"],
    "Metalurgia e indústria" := ["Serviço de tornearia", "Soldagem de estrutura (MIG/TIG)", "Corte e dobra de chapas metálicas"],
    "Informática e tecnologia" := ["Formatação de computador e instalação de SO", "Instalação e configuração de redes", "Manutenção de hardware e limpeza"],
    "Outros serviços" := ["Serviço personalizado", "Manutenção geral"]
  ]

  /** The item being typed: its id, the text to reveal and how many characters are shown. */
  datatype Typing = Typing(id: string, fullText: string, currentIndex: nat)

  /** The form's state together with the quote it edits. */
  datatype FormState = FormState(
    quote: Quote,
    aiInput: string,
    isLoading: bool,
    error: Option<string>,
    selectedArea: string,
    selectedService: string,
    serviceTypes: seq<string>,
    messages: seq<Json>,
    messageIndex: nat,
    pending: Option<QuoteDetails>,
    typing: Option<Typing>)

  /** The form as mounted on a quote. */
  function InitialForm(q: Quote): (s: FormState)
    ensures s.quote == q && !s.isLoading && s.typing.None? && s.pending.None?
    ensures s.messages == [] && s.messageIndex == 0 && s.selectedService == ""
  {
    FormState(q, "", false, None, "", "", [], [], 0, None, None)
  }

  // ---------------------------------------------------------------------
  // Area, service and the generate button
  // ---------------------------------------------------------------------

  /**
   * Choosing an area. The reset effect runs only when the area changes: the
   * service list becomes that area's services (none for an unknown or empty
   * area) and the chosen service is cleared.
   */
  function SelectArea(s: FormState, area: string): (r: FormState)
    ensures area == s.selectedArea ==> r == s
    ensures area != s.selectedArea ==> r.selectedArea == area && r.selectedService == ""
    ensures area != s.selectedArea && area in ServiceCategories ==> r.serviceTypes == ServiceCategories[area]
    ensures area != s.selectedArea && area !in ServiceCategories ==> r.serviceTypes == []
    ensures r.quote == s.quote && r.isLoading == s.isLoading && r.typing == s.typing
  {
    if area == s.selectedArea then s
    else
      var types := if area != "" && area in ServiceCategories then ServiceCategories[area] else [];
      s.(selectedArea := area, serviceTypes := types, selectedService := "")
  }

  function SelectService(s: FormState, service: string): (r: FormState)
    ensures r.selectedService == service && r.(selectedService := s.selectedService) == s
  {
    s.(selectedService := service)
  }

  /**
   * handleAIGenerateText up to its `await`: without an area and a service it
   * only sets the error; otherwise it starts loading with no messages.
   */
  function Generate(s: FormState): (r: FormState)
    ensures r.quote == s.quote && r.typing == s.typing && r.pending == s.pending
    ensures s.selectedArea == "" || s.selectedService == "" ==> r == s.(error := Some(SelectionError))
    ensures s.selectedArea != "" && s.selectedService != "" ==>
              (r.isLoading && r.error.None? && r.messages == [] && r.messageIndex == 0)
  {
    if s.selectedArea == "" || s.selectedService == "" then s.(error := Some(SelectionError))
    else s.(isLoading := true, error := None, messages := [], messageIndex := 0)
  }

  /**
   * A press of the generate button: it is not rendered while loading and is
   * disabled without a service or while an item is being typed.
   */
  function Press(s: FormState): (r: FormState)
    ensures s.isLoading || s.selectedService == "" || s.typing.Some? ==> r == s
    ensures !s.isLoading && s.selectedService != "" && s.typing.None? ==> r == Generate(s)
  {
    if s.isLoading || s.selectedService == "" || s.typing.Some? then s else Generate(s)
  }

  /** After a new area is chosen the button stays disabled until a service is chosen. */
  lemma NewAreaDisablesButton(s: FormState, area: string)
    requires area != s.selectedArea
    ensures Press(SelectArea(s, area)) == SelectArea(s, area)
  {
  }

  /** A press never starts a second generation, nor one over an item being typed. */
  lemma PressStartsOnlyWhenIdle(s: FormState)
    requires Press(s).isLoading
    ensures s.isLoading || (s.typing.None? && s.selectedArea != "" && s.selectedService != "")
    ensures !s.isLoading ==> Press(s).messages == [] && Press(s).messageIndex == 0
  {
  }

  /** What the suggestion service's call ends with: the reply, or the thrown error's message (`None` when the thrown value is not an Error). */
  type Reply = Result<AISuggestionResponse, Option<string>>

  /**
   * The rest of handleAIGenerateText: a reply queues the intro messages, then
   * the final message, and keeps the details for the settle tick; a failure
   * shows its message and stops loading.
   */
  function Receive(s: FormState, reply: Reply): (r: FormState)
    ensures r.quote == s.quote && r.typing == s.typing
    ensures reply.Success? ==>
              (r.messages == reply.value.introMensagens + [JStr(reply.value.mensagemFinal)]
               && r.pending == Some(reply.value.quoteDetails) && r.aiInput == "" && r.isLoading == s.isLoading)
    ensures reply.Failure? ==> !r.isLoading && r.error.Some? && r.messages == s.messages && r.pending == s.pending
    ensures reply.Failure? && reply.error.Some? ==> r.error == reply.error
  {
    match reply
    case Success(res) =>
      s.(messages := res.introMensagens + [JStr(res.mensagemFinal)], pending := Some(res.quoteDetails), aiInput := "")
    case Failure(msg) =>
      s.(error := Some(if msg.Some? then msg.value else UnknownError), isLoading := false)
  }

  /** The status line under the spinner: the current message, else the last one, else a default. */
  function ShownMessage(s: FormState): (m: Json)
    ensures Truthy(m)
    ensures s.messageIndex < |s.messages| && Truthy(s.messages[s.messageIndex]) ==> m == s.messages[s.messageIndex]
  {
    var ms := s.messages;
    if s.messageIndex < |ms| && Truthy(ms[s.messageIndex]) then ms[s.messageIndex]
    else if |ms| > 0 && Truthy(ms[|ms| - 1]) then ms[|ms| - 1]
    else JStr(WaitMessage)
  }

  /** Once every message has been shown, the final message stays on screen until the settle tick. */
  lemma FinalMessageShownLast(s: FormState, res: AISuggestionResponse)
    requires res.mensagemFinal != ""
    requires s.messages == res.introMensagens + [JStr(res.mensagemFinal)]
    requires s.messageIndex == |s.messages|
    ensures ShownMessage(s) == JStr(res.mensagemFinal)
  {
  }

  // ---------------------------------------------------------------------
  // The timer ticks
  // ---------------------------------------------------------------------

  predicate Thinking(s: FormState)
  {
    s.isLoading && |s.messages| > 0
  }

  /** The item a settle tick appends for the pending details. */
  function SettledItem(id: string, d: QuoteDetails): QuoteItem
  {
    QuoteItem(id, "", Num(1.0), Num(d.price))
  }

  /** A tick of the thinking effect: show the next message, or settle once all are shown. */
  function ThinkTick(s: FormState, newId: string): (r: FormState)
    requires Thinking(s)
    ensures s.messageIndex < |s.messages| ==> r == s.(messageIndex := s.messageIndex + 1)
    ensures s.messageIndex >= |s.messages| ==> !r.isLoading && r.messages == [] && r.messageIndex == 0 && r.pending.None?
    ensures s.messageIndex >= |s.messages| && s.pending.None? ==> r.quote == s.quote && r.typing == s.typing
    ensures s.messageIndex >= |s.messages| && s.pending.Some? ==>
      r.quote.items == s.quote.items + [SettledItem(newId, s.pending.value)]
      && r.typing == Some(Typing(newId, s.pending.value.description, 0))
  {
    if s.messageIndex < |s.messages| then s.(messageIndex := s.messageIndex + 1)
    else
      var settled := s.(isLoading := false, messages := [], messageIndex := 0);
      match s.pending
      case None => settled
      case Some(d) =>
        settled.(quote := QuoteChange(s.quote.(items := s.quote.items + [SettledItem(newId, d)])),
                 typing := Some(Typing(newId, d.description, 0)),
                 pending := None)
  }

  /** A tick of the typing effect: reveal one more character, or stop at the end of the text. */
  function TypeTick(s: FormState): (r: FormState)
    requires s.typing.Some?
    ensures var t := s.typing.value; t.currentIndex >= |t.fullText| ==> r == s.(typing := None)
    ensures var t := s.typing.value; t.currentIndex < |t.fullText| ==>
      r.typing == Some(t.(currentIndex := t.currentIndex + 1))
      && r.quote.items == UpdateItem(s.quote.items, t.id, SetDescription(t.fullText[..t.currentIndex + 1]))
      && r.isLoading == s.isLoading && r.messages == s.messages && r.pending == s.pending
  {
    var t := s.typing.value;
    if t.currentIndex >= |t.fullText| then s.(typing := None)
    else
      var items := UpdateItem(s.quote.items, t.id, SetDescription(t.fullText[..t.currentIndex + 1]));
      s.(quote := QuoteChange(s.quote.(items := items)), typing := Some(t.(currentIndex := t.currentIndex + 1)))
  }

  /**
   * The next timer firing. `newId` is the clock reading the settle tick turns
   * into the new item's id. With no timer pending the state stays as it is.
   */
  function Next(s: FormState, newId: string): (r: FormState)
    ensures !Thinking(s) && s.typing.None? ==> r == s
  {
    if Thinking(s) then ThinkTick(s, newId)
    else if s.typing.Some? then TypeTick(s)
    else s
  }

  /** `n` timer firings in a row. */
  function Run(s: FormState, newId: string, n: nat): FormState
    decreases n
  {
    if n == 0 then s else Run(Next(s, newId), newId, n - 1)
  }

  lemma {:induction false} RunAdd(s: FormState, newId: string, a: nat, b: nat)
    ensures Run(s, newId, a + b) == Run(Run(s, newId, a), newId, b)
    decreases a
  {
    if a > 0 {
      RunAdd(Next(s, newId), newId, a - 1, b);
    }
  }

  // ---------------------------------------------------------------------
  // The reveal invariant
  // ---------------------------------------------------------------------

  /** Every item carrying the typed id shows exactly the characters revealed so far. */
  predicate TypedSoFar(items: seq<QuoteItem>, t: Typing)
  {
    t.currentIndex <= |t.fullText| &&
    forall k :: 0 <= k < |items| && items[k].id == t.id ==> items[k].description == t.fullText[..t.currentIndex]
  }

  /**
   * What the reveal keeps true: generation and typing never overlap, the
   * message index stays within the messages, details are pending exactly
   * while messages are being shown, and the typed item shows a prefix.
   */
  predicate RevealInv(s: FormState)
  {
    (s.isLoading ==> s.typing.None?)
    && s.messageIndex <= |s.messages|
    && (s.pending.Some? <==> Thinking(s))
    && (!s.isLoading ==> s.messages == [] && s.messageIndex == 0)
    && (s.typing.Some? ==> TypedSoFar(s.quote.items, s.typing.value))
  }

  lemma InitialFormInv(q: Quote)
    ensures RevealInv(InitialForm(q))
  {
  }

  /** Edits of the description of one id leave every other id's items alone and set the edited ones. */
  lemma DescriptionTick(items: seq<QuoteItem>, t: Typing)
    requires TypedSoFar(items, t) && t.currentIndex < |t.fullText|
    ensures TypedSoFar(UpdateItem(items, t.id, SetDescription(t.fullText[..t.currentIndex + 1])),
                       t.(currentIndex := t.currentIndex + 1))
  {
  }

  /** A fresh id for the settled item: no item shows it, so the blank item is the only one it names. */
  lemma SettleTypedSoFar(items: seq<QuoteItem>, newId: string, d: QuoteDetails)
    requires !HasItemId(items, newId)
    ensures TypedSoFar(items + [SettledItem(newId, d)], Typing(newId, d.description, 0))
  {
    var r := items + [SettledItem(newId, d)];
    forall k | 0 <= k < |r| && r[k].id == newId
      ensures r[k].description == d.description[..0]
    {
      assert k == |items|;
    }
  }

  /** Every tick keeps the invariant, provided the id a settle tick would use is fresh. */
  lemma NextKeepsInv(s: FormState, newId: string)
    requires RevealInv(s)
    requires s.pending.Some? ==> !HasItemId(s.quote.items, newId)
    ensures RevealInv(Next(s, newId))
    ensures Next(s, newId).pending.Some? ==> !HasItemId(Next(s, newId).quote.items, newId)
  {
    if Thinking(s) && s.messageIndex == |s.messages| {
      SettleTypedSoFar(s.quote.items, newId, s.pending.value);
    } else if !Thinking(s) && s.typing.Some? && s.typing.value.currentIndex < |s.typing.value.fullText| {
      DescriptionTick(s.quote.items, s.typing.value);
    }
  }

  /**
   * Through any number of ticks the invariant holds, so every description
   * the typed item shows along the way is a prefix of the suggested text.
   */
  lemma {:induction false} RunKeepsInv(s: FormState, newId: string, n: nat)
    requires RevealInv(s)
    requires s.pending.Some? ==> !HasItemId(s.quote.items, newId)
    ensures RevealInv(Run(s, newId, n))
    decreases n
  {
    if n > 0 {
      NextKeepsInv(s, newId);
      RunKeepsInv(Next(s, newId), newId, n - 1);
    }
  }

  /** Pressing the button, choosing an area or a service keeps the invariant. */
  lemma ControlsKeepInv(s: FormState, area: string, service: string)
    requires RevealInv(s)
    ensures RevealInv(Press(s)) && RevealInv(SelectArea(s, area)) && RevealInv(SelectService(s, service))
  {
  }

  /** The reply arrives while loading, before any message: it keeps the invariant. */
  lemma ReceiveKeepsInv(s: FormState, reply: Reply)
    requires RevealInv(s) && s.isLoading && s.messages == []
    ensures RevealInv(Receive(s, reply))
  {
  }

  /** While an item is typed, what it shows is always a prefix of the suggested text. */
  lemma TypedIsPrefix(s: FormState, k: nat)
    requires RevealInv(s) && s.typing.Some?
    requires k < |s.quote.items| && s.quote.items[k].id == s.typing.value.id
    ensures var d := s.quote.items[k].description;
      |d| <= |s.typing.value.fullText| && s.typing.value.fullText[..|d|] == d
  {
  }

  // ---------------------------------------------------------------------
  // A whole reveal
  // ---------------------------------------------------------------------

  /** The thinking ticks before the settle: only the message index moves. */
  lemma {:induction false} ThinkingRun(s: FormState, newId: string, j: nat)
    requires Thinking(s) && s.messageIndex + j <= |s.messages|
    ensures Run(s, newId, j) == s.(messageIndex := s.messageIndex + j)
    decreases j
  {
    if j > 0 {
      ThinkingRun(s.(messageIndex := s.messageIndex + 1), newId, j - 1);
    }
  }

  /** Applying the derivation to an already derived quote whose items are then replaced is applying it once. */
  lemma QuoteChangeAfterItems(q: Quote, items: seq<QuoteItem>)
    ensures QuoteChange(QuoteChange(q).(items := items)) == QuoteChange(q.(items := items))
  {
    QuoteChangeIgnoresStaleFields(q.(items := items), QuoteChange(q).title, QuoteChange(q).total);
  }

  /** The quote while the item with `id` shows `shown`. */
  function Revealed(q: Quote, base: seq<QuoteItem>, id: string, shown: string, price: real): Quote
  {
    QuoteChange(q.(items := base + [QuoteItem(id, shown, Num(1.0), Num(price))]))
  }

  /** One typing tick on the last item, the only one with its id. */
  lemma TypingStep(s: FormState, q: Quote, base: seq<QuoteItem>, id: string, text: string, price: real, i: nat)
    requires !s.isLoading && !HasItemId(base, id) && i < |text|
    requires s.typing == Some(Typing(id, text, i))
    requires s.quote == Revealed(q, base, id, text[..i], price)
    ensures Next(s, id) == s.(quote := Revealed(q, base, id, text[..i + 1], price), typing := Some(Typing(id, text, i + 1)))
  {
    var last := QuoteItem(id, text[..i], Num(1.0), Num(price));
    var e := SetDescription(text[..i + 1]);
    var u := UpdateItem(base + [last], id, e);
    assert s.quote.items == base + [last];
    UpdateItemAppend(base, [last], id, e);
    UpdateItemAbsent(base, id, e);
    assert UpdateItem([last], id, e) == [QuoteItem(id, text[..i + 1], Num(1.0), Num(price))];
    assert u == base + [QuoteItem(id, text[..i + 1], Num(1.0), Num(price))];
    QuoteChangeAfterItems(q.(items := base + [last]), u);
    assert q.(items := base + [last]).(items := u) == q.(items := u);
  }

  /** The typing ticks: one character per tick until the whole text is shown. */
  lemma {:induction false} TypingRun(s: FormState, q: Quote, base: seq<QuoteItem>, id: string, text: string, price: real, i: nat, j: nat)
    requires !s.isLoading && !HasItemId(base, id) && i + j <= |text|
    requires s.typing == Some(Typing(id, text, i))
    requires s.quote == Revealed(q, base, id, text[..i], price)
    ensures Run(s, id, j) == s.(quote := Revealed(q, base, id, text[..i + j], price), typing := Some(Typing(id, text, i + j)))
    decreases j
  {
    if j > 0 {
      TypingStep(s, q, base, id, text, price, i);
      var s' := s.(quote := Revealed(q, base, id, text[..i + 1], price), typing := Some(Typing(id, text, i + 1)));
      assert Run(s, id, j) == Run(s', id, j - 1);
      TypingRun(s', q, base, id, text, price, i + 1, j - 1);
      assert i + 1 + (j - 1) == i + j;
    }
  }

  /** The settle tick: generation ends and the new item, still blank, is appended for typing. */
  lemma SettleStep(s: FormState, newId: string)
    requires Thinking(s) && s.messageIndex == |s.messages| && s.pending.Some?
    ensures Next(s, newId) == s.(isLoading := false, messages := [], messageIndex := 0,
      quote := Revealed(s.quote, s.quote.items, newId, "", s.pending.value.price),
      typing := Some(Typing(newId, s.pending.value.description, 0)), pending := None)
  {
  }

  /** The tick after the last character ends the typing and changes nothing else. */
  lemma TypingDone(s: FormState, t: Typing)
    requires !s.isLoading && s.typing == Some(t) && t.currentIndex == |t.fullText|
    ensures Next(s, t.id) == s.(typing := None)
  {
  }

  /** `a` ticks, one tick, `b` ticks and one last tick. */
  lemma RunPhases(s: FormState, newId: string, a: nat, b: nat)
    ensures Run(s, newId, a + b + 2) == Next(Run(Next(Run(s, newId, a), newId), newId, b), newId)
  {
    var x := Run(s, newId, a);
    RunAdd(s, newId, a, b + 2);
    assert Run(x, newId, b + 2) == Run(Next(x, newId), newId, b + 1);
    RunAdd(Next(x, newId), newId, b, 1);
  }

  /**
   * A whole reveal. From the reply's arrival, the messages are shown one per
   * tick, the settle tick appends one item, the typing ticks write the
   * suggested description into it and a last tick ends the typing. The quote
   * then has exactly one more item — quantity 1, the suggested price, the full
   * description — the total grows by that price, and no timer is left.
   */
  lemma RevealCompletes(s: FormState, newId: string)
    requires Thinking(s) && s.messageIndex == 0 && s.typing.None? && s.pending.Some?
    requires !HasItemId(s.quote.items, newId)
    ensures var d := s.pending.value;
      var r := Run(s, newId, |s.messages| + |d.description| + 2);
      r.quote == QuoteChange(s.quote.(items := s.quote.items + [QuoteItem(newId, d.description, Num(1.0), Num(d.price))]))
      && r.quote.total == Sum(s.quote.items) + d.price
      && !r.isLoading && r.typing.None? && r.pending.None? && r.messages == []
      && Next(r, newId) == r
  {
    var d := s.pending.value;
    var m, n := |s.messages|, |d.description|;
    var q := s.quote;
    RunPhases(s, newId, m, n);
    ThinkingRun(s, newId, m);
    var s1 := s.(messageIndex := m);
    SettleStep(s1, newId);
    var s2 := Next(s1, newId);
    assert d.description[..0] == "";
    TypingRun(s2, q, q.items, newId, d.description, d.price, 0, n);
    assert d.description[..n] == d.description;
    var s3 := Run(s2, newId, n);
    TypingDone(s3, Typing(newId, d.description, n));
    SumAppend(q.items, QuoteItem(newId, d.description, Num(1.0), Num(d.price)));
  }

  // ---------------------------------------------------------------------
  // The form component
  // ---------------------------------------------------------------------

  /** The form component: its own state in fields, the quote in the application shell. */
  class QuoteForm {
    const app: AppState
    var aiInput: string
    var isLoading: bool
    var error: Option<string>
    var selectedArea: string
    var selectedService: string
    var serviceTypes: seq<string>
    var aiStatusMessages: seq<Json>
    var currentMessageIndex: nat
    var pendingTextItem: Option<QuoteDetails>
    var typingItem: Option<Typing>

    function State(): FormState
      reads this, app
    {
      FormState(app.quote, aiInput, isLoading, error, selectedArea, selectedService, serviceTypes,
                aiStatusMessages, currentMessageIndex, pendingTextItem, typingItem)
    }

    constructor (app: AppState)
      ensures this.app == app
      ensures State() == InitialForm(app.quote)
    {
      this.app := app;
      aiInput := "";
      isLoading := false;
      error := None;
      selectedArea := "";
      selectedService := "";
      serviceTypes := [];
      aiStatusMessages := [];
      currentMessageIndex := 0;
      pendingTextItem := None;
      typingItem := None;
    }

    /** The next timer firing of the thinking or typing effect. */
    method Step(newId: string)
      modifies this, app`quote
      ensures State() == Next(old(State()), newId)
    {
      if isLoading && |aiStatusMessages| > 0 {
        if currentMessageIndex < |aiStatusMessages| {
          currentMessageIndex := currentMessageIndex + 1;
        } else {
          isLoading := false;
          aiStatusMessages := [];
          currentMessageIndex := 0;
          if pendingTextItem.Some? {
            var d := pendingTextItem.value;
            var newItem := SettledItem(newId, d);
            app.HandleQuoteChange(app.quote.(items := app.quote.items + [newItem]));
            typingItem := Some(Typing(newId, d.description, 0));
            pendingTextItem := None;
          }
        }
      } else if typingItem.Some? {
        var t := typingItem.value;
        if t.currentIndex >= |t.fullText| {
          typingItem := None;
        } else {
          var updated := UpdateItem(app.quote.items, t.id, SetDescription(t.fullText[..t.currentIndex + 1]));
          app.HandleQuoteChange(app.quote.(items := updated));
          typingItem := Some(t.(currentIndex := t.currentIndex + 1));
        }
      }
    }

    /** A press of the generate button. */
    method PressGenerate()
      modifies this
      ensures State() == Press(old(State()))
    {
      if !isLoading && selectedService != "" && typingItem.None? {
        if selectedArea == "" || selectedService == "" {
          error := Some(SelectionError);
        } else {
          isLoading := true;
          error := None;
          aiStatusMessages := [];
          currentMessageIndex := 0;
        }
      }
    }

    /** The suggestion service's call returns. */
    method ReceiveReply(reply: Reply)
      modifies this
      ensures State() == Receive(old(State()), reply)
    {
      match reply
      case Success(res) =>
        aiStatusMessages := res.introMensagens + [JStr(res.mensagemFinal)];
        pendingTextItem := Some(res.quoteDetails);
        aiInput := "";
      case Failure(msg) =>
        error := Some(if msg.Some? then msg.value else UnknownError);
        isLoading := false;
    }

    /** The area select, followed by its reset effect when the area changed. */
    method ChooseArea(area: string)
      modifies this
      ensures State() == SelectArea(old(State()), area)
    {
      if area != selectedArea {
        selectedArea := area;
        if area != "" && area in ServiceCategories {
          serviceTypes := ServiceCategories[area];
        } else {
          serviceTypes := [];
        }
        selectedService := "";
      }
    }

    method ChooseService(service: string)
      modifies this
      ensures State() == SelectService(old(State()), service)
    {
      selectedService := service;
    }

    /** handleItemChange: the edited quote goes through the shell's derivation. */
    method HandleItemChange(id: string, field: ItemField, value: string)
      modifies app`quote
      ensures app.quote == QuoteChange(ItemChange(old(app.quote), id, field, value))
    {
      app.HandleQuoteChange(ItemChange(app.quote, id, field, value));
    }

    method HandlePriceInputChange(id: string, value: string)
      modifies app`quote
      ensures app.quote == QuoteChange(PriceInputChange(old(app.quote), id, value))
    {
      HandleItemChange(id, Price, SanitizePrice(value));
    }

    /** handleAddItem, with the clock reading that becomes the new item's id. */
    method HandleAddItem(newId: string)
      modifies app`quote
      ensures app.quote == QuoteChange(old(app.quote).(items := AddItem(old(app.quote).items, newId)))
    {
      app.HandleQuoteChange(app.quote.(items := AddItem(app.quote.items, newId)));
    }

    method HandleRemoveItem(id: string)
      modifies app`quote
      ensures app.quote == QuoteChange(old(app.quote).(items := RemoveItem(old(app.quote).items, id)))
    {
      app.HandleQuoteChange(app.quote.(items := RemoveItem(app.quote.items, id)));
    }

    /** handleInputChange and handleLogoUpload. */
    method HandleInputChange(e: InputEdit)
      modifies app`quote
      ensures app.quote == QuoteChange(InputChange(old(app.quote), e))
    {
      app.HandleQuoteChange(InputChange(app.quote, e));
    }
  }

  // ---------------------------------------------------------------------
  // The date input's value
  // ---------------------------------------------------------------------

  /** `String(n).padStart(2, '0')`. */
  function PadStart2(n: nat): (r: string)
    ensures |r| >= 2 && AllDigits(r) && DigitsToNat(r) == n
  {
    var s := NatToString(n);
    NatToStringRoundTrip(n);
    if |s| >= 2 then s
    else
      var r := ['0'] + s;
      assert r[..1] == "0" && r[..1][..0] == [];
      r
  }

  /** A calendar date as the local-time getters return it: `monthIndex` counts from 0. */
  datatype CalendarDate = CalendarDate(year: nat, monthIndex: nat, day: nat)

  /** getHtml5Date: `yyyy-mm-dd`, or the empty string when there is no date. */
  function Html5Date(d: Option<CalendarDate>): (r: string)
    ensures d.None? <==> r == ""
  {
    match d
    case None => ""
    case Some(c) => NatToString(c.year) + "-" + PadStart2(c.monthIndex + 1) + "-" + PadStart2(c.day)
  }

  /** A string of digits holds no dash. */
  lemma DigitsNoDash(s: string)
    requires AllDigits(s)
    ensures '-' !in s
  {
    forall k | 0 <= k < |s| ensures s[k] != '-' {
      assert IsDigit(s[k]);
    }
  }

  lemma DateParts(s: string, y: string, m: string, d: string)
    requires AllDigits(y) && AllDigits(m) && AllDigits(d)
    requires s == y + "-" + m + "-" + d
    ensures var parts := Split(s, '-');
      parts == [y, m, d] && |parts| == 3 && parts[0] == y && parts[1] == m && parts[2] == d
  {
    DigitsNoDash(y);
    DigitsNoDash(m);
    DigitsNoDash(d);
    SplitThree(y, m, d, '-');
  }

  /** The date input's value splits at its dashes into the year, the month (from 1) and the day. */
  lemma Html5DateFields(c: CalendarDate)
    ensures var parts := Split(Html5Date(Some(c)), '-');
      |parts| == 3 && AllDigits(parts[0]) && AllDigits(parts[1]) && AllDigits(parts[2])
      && DigitsToNat(parts[0]) == c.year
      && DigitsToNat(parts[1]) == c.monthIndex + 1
      && DigitsToNat(parts[2]) == c.day
  {
    var y, m, d := NatToString(c.year), PadStart2(c.monthIndex + 1), PadStart2(c.day);
    NatToStringRoundTrip(c.year);
    DateParts(Html5Date(Some(c)), y, m, d);
  }
}

=== FILE: quote_preview.dfy ===
/**
 * The preview panel: the message shown line by line with the bold-line rule,
 * saving the quote into the stored dashboard data (an upsert by id), and the
 * send button, which saves the quote as sent and opens a chat link for the
 * client's phone number.
 */
module QuotePreview {
  import opened Wrappers
  import opened Strings
  import opened Json
  import opened Types
  import opened Storage
  import opened App

  // ---------------------------------------------------------------------
  // The local loader
  // ---------------------------------------------------------------------

  /** The keys the preview's reviver turns into dates (the financial records' `date` is not one). */
  const PreviewDateKeys: seq<string> := ["createdAt", "validity", "entryDate", "startDate", "deadline"]

  /**
   * The preview's reviver: any truthy value under a date key becomes
   * `new Date(value)`, here `toDate(value)`, which may be an invalid date.
   */
  function PreviewReviver(toDate: Json -> Option<int>, key: string, value: Json): (r: Json)
    ensures r != value ==> key in PreviewDateKeys && Truthy(value) && r == JDate(toDate(value))
    ensures key in PreviewDateKeys && Truthy(value) ==> r == JDate(toDate(value))
  {
    if key in PreviewDateKeys && Truthy(value) then JDate(toDate(value)) else value
  }

  /** A value that does not parse back to a date becomes an invalid date, not the original value. */
  lemma PreviewReviverMakesInvalidDates(toDate: Json -> Option<int>, s: string)
    requires s != "" && toDate(JStr(s)).None?
    ensures PreviewReviver(toDate, "createdAt", JStr(s)) == JDate(None)
  {
  }

  datatype LoadError = StoredDataUnreadable

  function EmptyData(): (d: DashboardData)
    ensures d.leads == [] && d.quotes == [] && d.clients == [] && d.tasks == [] && d.financials == []
  {
    DashboardData([], [], [], [], [])
  }

  /**
   * The preview's own getDashboardData: empty collections when nothing is
   * stored, the stored data otherwise; unreadable data makes it throw, as
   * nothing here catches the parse error.
   */
  function LoadLocal(slot: Option<Blob<DashboardData>>): (r: Result<DashboardData, LoadError>)
    ensures slot.None? ==> r == Success(EmptyData())
    ensures slot.Some? && slot.value.Stored? ==> r == Success(slot.value.value)
    ensures r.Failure? <==> slot == Some(Unparsable)
  {
    match slot
    case None => Success(EmptyData())
    case Some(Stored(d)) => Success(d)
    case Some(Unparsable) => Failure(StoredDataUnreadable)
  }

  // ---------------------------------------------------------------------
  // Upsert by id
  // ---------------------------------------------------------------------

  predicate HasQuoteId(quotes: seq<Quote>, id: string)
  {
    exists k :: 0 <= k < |quotes| && quotes[k].id == id
  }

  /** No two quotes share an id. */
  predicate UniqueIds(quotes: seq<Quote>)
  {
    forall i, j :: 0 <= i < j < |quotes| ==> quotes[i].id != quotes[j].id
  }

  /** `findIndex` by id: the first quote with the id, or -1. */
  function FindIndex(quotes: seq<Quote>, id: string): (i: int)
    ensures -1 <= i < |quotes|
    ensures i >= 0 ==> quotes[i].id == id && forall j :: 0 <= j < i ==> quotes[j].id != id
    ensures i == -1 <==> !HasQuoteId(quotes, id)
  {
    if quotes == [] then -1
    else if quotes[0].id == id then 0
    else
      var j := FindIndex(quotes[1..], id);
      if j == -1 then
        assert !HasQuoteId(quotes, id) by {
          forall k | 0 <= k < |quotes| ensures quotes[k].id != id {
            if k > 0 { assert quotes[k] == quotes[1..][k - 1]; }
          }
        }
        -1
      else j + 1
  }

  /** The save's update of the quote list: replace the first quote with the id, or append. */
  function Upsert(quotes: seq<Quote>, q: Quote): (r: seq<Quote>)
    ensures HasQuoteId(quotes, q.id) ==> |r| == |quotes| && r == quotes[FindIndex(quotes, q.id) := q]
    ensures !HasQuoteId(quotes, q.id) ==> r == quotes + [q]
  {
    var i := FindIndex(quotes, q.id);
    if i > -1 then quotes[i := q] else quotes + [q]
  }

  /** After a save the quote is found under its id, exactly as saved. */
  lemma UpsertThenFind(quotes: seq<Quote>, q: Quote)
    ensures var r := Upsert(quotes, q); FindIndex(r, q.id) >= 0 && r[FindIndex(r, q.id)] == q
  {
    var r := Upsert(quotes, q);
    if HasQuoteId(quotes, q.id) {
      var i := FindIndex(quotes, q.id);
      assert r[i].id == q.id;
      var j := FindIndex(r, q.id);
      assert j <= i;
    } else {
      assert r[|quotes|] == q;
    }
  }

  /** The length stays when the id is present and grows by one otherwise; every other quote stays in place. */
  lemma UpsertShape(quotes: seq<Quote>, q: Quote)
    ensures |Upsert(quotes, q)| == if HasQuoteId(quotes, q.id) then |quotes| else |quotes| + 1
    ensures forall k :: 0 <= k < |quotes| && quotes[k].id != q.id ==> Upsert(quotes, q)[k] == quotes[k]
  {
  }

  /** Saving the same quote twice stores what saving it once stores. */
  lemma UpsertIdempotent(quotes: seq<Quote>, q: Quote)
    ensures Upsert(Upsert(quotes, q), q) == Upsert(quotes, q)
  {
    var r := Upsert(quotes, q);
    UpsertThenFind(quotes, q);
    var j := FindIndex(r, q.id);
    assert HasQuoteId(r, q.id);
    assert r[j := q] == r;
  }

  /** An upsert never creates a second quote with the same id. */
  lemma UpsertKeepsIdsUnique(quotes: seq<Quote>, q: Quote)
    requires UniqueIds(quotes)
    ensures UniqueIds(Upsert(quotes, q))
  {
    var r := Upsert(quotes, q);
    if HasQuoteId(quotes, q.id) {
      var i := FindIndex(quotes, q.id);
      forall a, b | 0 <= a < b < |r| ensures r[a].id != r[b].id {
        if a == i { assert r[b] == quotes[b]; }
        else if b == i { assert r[a] == quotes[a]; }
        else { assert r[a] == quotes[a] && r[b] == quotes[b]; }
      }
    } else {
      forall a, b | 0 <= a < b < |r| ensures r[a].id != r[b].id {
        assert r[a] == quotes[a];
        if b == |quotes| { assert r[b] == q; } else { assert r[b] == quotes[b]; }
      }
    }
  }

  // ---------------------------------------------------------------------
  // handleSaveToDashboard
  // ---------------------------------------------------------------------

  /** A quote can be saved when it names a client and has at least one item. */
  predicate CanSave(q: Quote)
  {
    q.clientName != "" && |q.items| > 0
  }

  datatype SaveOutcome = Rejected | Saved | Threw

  datatype SaveResult = SaveResult(outcome: SaveOutcome, slot: Option<Blob<DashboardData>>)

  /** The data written back: the loaded data with the quote upserted and nothing else changed. */
  function WithQuote(d: DashboardData, q: Quote): (r: DashboardData)
    ensures r.quotes == Upsert(d.quotes, q)
    ensures r.leads == d.leads && r.clients == d.clients && r.tasks == d.tasks && r.financials == d.financials
  {
    d.(quotes := Upsert(d.quotes, q))
  }

  /** What handleSaveToDashboard does to the stored dashboard data. */
  function SaveEffect(slot: Option<Blob<DashboardData>>, q: Quote): (r: SaveResult)
    ensures r.outcome != Saved ==> r.slot == slot
    ensures r.outcome == Rejected <==> !CanSave(q)
    ensures r.outcome == Threw <==> CanSave(q) && slot == Some(Unparsable)
    ensures r.outcome == Saved ==> r.slot == Some(Stored(WithQuote(LoadLocal(slot).value, q)))
  {
    if !CanSave(q) then SaveResult(Rejected, slot)
    else match LoadLocal(slot)
      case Failure(_) => SaveResult(Threw, slot)
      case Success(d) => SaveResult(Saved, Some(Stored(WithQuote(d, q))))
  }

  /** The first save into an empty store holds exactly that quote and no other records. */
  lemma FirstSave(q: Quote)
    requires CanSave(q)
    ensures SaveEffect(None, q).slot == Some(Stored(DashboardData([], [q], [], [], [])))
  {
    assert Upsert([], q) == [q];
  }

  /** Saving twice in a row stores what one save stores. */
  lemma SaveIdempotent(slot: Option<Blob<DashboardData>>, q: Quote)
    ensures SaveEffect(SaveEffect(slot, q).slot, q).slot == SaveEffect(slot, q).slot
  {
    if SaveEffect(slot, q).outcome == Saved {
      UpsertIdempotent(LoadLocal(slot).value.quotes, q);
    }
  }

  /** handleSaveToDashboard, writing the store in place. */
  method SaveToDashboard(store: LocalStorage, q: Quote) returns (outcome: SaveOutcome)
    modifies store`dashboardData
    ensures SaveResult(outcome, store.dashboardData) == SaveEffect(old(store.dashboardData), q)
  {
    if q.clientName == "" || |q.items| == 0 {
      return Rejected;
    }
    var loaded := LoadLocal(store.dashboardData);
    if loaded.Failure? {
      return Threw;
    }
    var data := loaded.value;
    var existing := FindIndex(data.quotes, q.id);
    if existing > -1 {
      data := data.(quotes := data.quotes[existing := q]);
    } else {
      data := data.(quotes := data.quotes + [q]);
    }
    store.dashboardData := Some(Stored(data));
    outcome := Saved;
  }

  // ---------------------------------------------------------------------
  // handleSendWhatsApp
  // ---------------------------------------------------------------------

  /** `replace(/\D/g, '')`: the digits of the contact, in order. */
  function DigitsOnly(s: string): (r: string)
    ensures AllDigits(r) && |r| <= |s|
  {
    if s == [] then []
    else if IsDigit(s[0]) then [s[0]] + DigitsOnly(s[1..])
    else DigitsOnly(s[1..])
  }

  lemma {:induction false} DigitsOnlyKeeps(s: string)
    requires AllDigits(s)
    ensures DigitsOnly(s) == s
  {
    if s != [] {
      DigitsOnlyKeeps(s[1..]);
    }
  }

  /** Normalising an already normalised number changes nothing. */
  lemma DigitsOnlyIdempotent(s: string)
    ensures DigitsOnly(DigitsOnly(s)) == DigitsOnly(s)
  {
    DigitsOnlyKeeps(DigitsOnly(s));
  }

  /** A single character is kept exactly when it is a digit; with DigitsOnlyConcat this fixes every result. */
  lemma DigitsOnlyChar(c: char)
    ensures DigitsOnly([c]) == if IsDigit(c) then [c] else []
  {
    assert [c][1..] == [];
  }

  lemma {:induction false} DigitsOnlyConcat(a: string, b: string)
    ensures DigitsOnly(a + b) == DigitsOnly(a) + DigitsOnly(b)
  {
    if a == [] {
      assert a + b == b;
    } else {
      assert (a + b)[1..] == a[1..] + b;
      DigitsOnlyConcat(a[1..], b);
    }
  }

  /** The number dialled: `55` in front of numbers of ten digits or more. */
  function FullPhone(phone: string): (r: string)
    ensures |phone| >= 10 ==> r == "55" + phone
    ensures |phone| < 10 ==> r == phone
  {
    if |phone| >= 10 then "55" + phone else phone
  }

  /** The dialled number ends with the contact's digits and grows by two digits exactly when it has ten or more. */
  lemma FullPhoneShape(contact: string)
    ensures var p := DigitsOnly(contact); var f := FullPhone(p);
      AllDigits(f) && f[|f| - |p|..] == p && (|f| == |p| + 2 <==> |p| >= 10)
  {
    var p := DigitsOnly(contact);
    var f := FullPhone(p);
    assert AllDigits(f) by {
      forall i | 0 <= i < |f| ensures IsDigit(f[i]) {
        if |p| >= 10 && i >= 2 { assert f[i] == p[i - 2]; }
      }
    }
  }

  /** A number that already carries the country code gets it a second time. */
  lemma CountryCodeDoubled(local: string)
    requires |DigitsOnly(local)| >= 8
    ensures |FullPhone(DigitsOnly("55" + local))| >= 4
    ensures FullPhone(DigitsOnly("55" + local))[..4] == "5555"
  {
    DigitsOnlyConcat("55", local);
    DigitsOnlyKeeps("55");
  }

  datatype SendOutcome = MissingPhone | Aborted | Opened(phone: string, text: string)

  datatype SendResult = SendResult(outcome: SendOutcome, slot: Option<Blob<DashboardData>>)

  /**
   * What handleSendWhatsApp does: without a phone only a notice; otherwise
   * the quote is saved with status "Enviado" and the chat link opened with
   * the message text, whether or not the save was accepted. Unreadable stored
   * data makes the save throw, and the link is then not opened.
   */
  function SendEffect(slot: Option<Blob<DashboardData>>, q: Quote, text: string): (r: SendResult)
    ensures DigitsOnly(q.clientContact) == "" ==> r == SendResult(MissingPhone, slot)
    ensures DigitsOnly(q.clientContact) != "" ==> r.slot == SaveEffect(slot, q.(status := Enviado)).slot
    ensures r.outcome.Opened? ==> r.outcome == Opened(FullPhone(DigitsOnly(q.clientContact)), text)
    ensures r.outcome == Aborted <==> DigitsOnly(q.clientContact) != "" && CanSave(q) && slot == Some(Unparsable)
  {
    var phone := DigitsOnly(q.clientContact);
    if phone == "" then SendResult(MissingPhone, slot)
    else
      var saved := SaveEffect(slot, q.(status := Enviado));
      if saved.outcome == Threw then SendResult(Aborted, saved.slot)
      else SendResult(Opened(FullPhone(phone), text), saved.slot)
  }

  /** The link opens even when the save is rejected; only unreadable stored data stops it. */
  lemma SendOpensUnlessThrown(slot: Option<Blob<DashboardData>>, q: Quote, text: string)
    requires DigitsOnly(q.clientContact) != ""
    ensures SendEffect(slot, q, text).outcome.Opened? <==> !(CanSave(q) && slot == Some(Unparsable))
    ensures !CanSave(q) ==> SendEffect(slot, q, text) == SendResult(Opened(FullPhone(DigitsOnly(q.clientContact)), text), slot)
  {
  }

  /** A send that saves stores the quote as sent, every other field as it was. */
  lemma SendStoresSentCopy(d: DashboardData, q: Quote, text: string)
    requires DigitsOnly(q.clientContact) != "" && CanSave(q)
    ensures var r := SendEffect(Some(Stored(d)), q, text);
      r.slot.Some? && r.slot.value.Stored? &&
      var qs := r.slot.value.value.quotes;
      var k := FindIndex(qs, q.id);
      k >= 0 && qs[k] == q.(status := Enviado) && qs[k].(status := q.status) == q
  {
    UpsertThenFind(d.quotes, q.(status := Enviado));
  }

  /** handleSendWhatsApp; `text` is the formatted message. */
  method SendWhatsApp(store: LocalStorage, q: Quote, text: string) returns (outcome: SendOutcome)
    modifies store`dashboardData
    ensures SendResult(outcome, store.dashboardData) == SendEffect(old(store.dashboardData), q, text)
  {
    var phone := DigitsOnly(q.clientContact);
    if phone == "" {
      return MissingPhone;
    }
    var updated := q.(status := Enviado);
    var saved := SaveToDashboard(store, updated);
    if saved == Threw {
      return Aborted;
    }
    var fullPhone := if |phone| >= 10 then "55" + phone else phone;
    outcome := Opened(fullPhone, text);
  }

  // ---------------------------------------------------------------------
  // The bold-line rule
  // ---------------------------------------------------------------------

  datatype PreviewLine = Bold(text: string) | Plain(text: string)

  /** A line that starts and ends with `*` is shown bold without them (`slice(1, -1)`); any other line as is. */
  function RenderLine(line: string): (r: PreviewLine)
    ensures r.Bold? <==> |line| >= 1 && line[0] == '*' && line[|line| - 1] == '*'
    ensures r.Plain? ==> r.text == line
    ensures r.Bold? ==> |r.text| == if |line| >= 2 then |line| - 2 else 0
  {
    if |line| >= 1 && line[0] == '*' && line[|line| - 1] == '*' then
      Bold(if |line| >= 2 then line[1..|line| - 1] else "")
    else Plain(line)
  }

  /** Any text wrapped in asterisks is shown bold as exactly that text. */
  lemma BoldRoundTrip(t: string)
    ensures RenderLine("*" + t + "*") == Bold(t)
  {
    var line := "*" + t + "*";
    assert line[1..|line| - 1] == t;
  }

  /** A bold line shown is its text wrapped back in the asterisks it lost. */
  lemma BoldLineIsWrapped(line: string)
    requires |line| >= 2 && RenderLine(line).Bold?
    ensures "*" + RenderLine(line).text + "*" == line
  {
  }

  /** The preview: the message split at line feeds, each line rendered. */
  function Preview(formatted: string): (r: seq<PreviewLine>)
    ensures |r| == |Split(formatted, '\n')|
  {
    var lines := Split(formatted, '\n');
    seq(|lines|, i requires 0 <= i < |lines| => RenderLine(lines[i]))
  }

  /** The line at `k` of the preview is that line of the message, rendered. */
  lemma PreviewAt(formatted: string, k: nat)
    requires k < |Split(formatted, '\n')|
    ensures Preview(formatted)[k] == RenderLine(Split(formatted, '\n')[k])
  {
  }

  /** The message's opening lines are the preview's first lines. */
  lemma OpeningLineAt(q: Quote, loc: Locale, k: nat)
    requires SingleLineFields(q) && k < |OpeningLines(q)|
    ensures |Preview(FormatQuote(q, loc))| > |OpeningLines(q)|
    ensures Preview(FormatQuote(q, loc))[k] == RenderLine(OpeningLines(q)[k])
  {
    FormatLines(q, loc);
    PrefixLineAt(FormatQuote(q, loc), OpeningLines(q), k);
  }

  /** When the message's lines start with `prefix`, the preview starts with them rendered. */
  lemma PrefixLineAt(formatted: string, prefix: seq<string>, k: nat)
    requires |Split(formatted, '\n')| > |prefix| && Split(formatted, '\n')[..|prefix|] == prefix
    requires k < |prefix|
    ensures |Preview(formatted)| > |prefix|
    ensures Preview(formatted)[k] == RenderLine(prefix[k])
  {
    var lines := Split(formatted, '\n');
    assert lines[k] == lines[..|prefix|][k];
    PreviewAt(formatted, k);
  }

  /** The message's first line, `*title (id)*`, is shown bold as `title (id)`. */
  lemma HeaderShownBold(q: Quote, loc: Locale)
    requires SingleLineFields(q)
    ensures |Preview(FormatQuote(q, loc))| > 1
    ensures Preview(FormatQuote(q, loc))[0] == Bold(q.title + " (" + q.id + ")")
  {
    var t := q.title + " (" + q.id + ")";
    assert OpeningLines(q)[0] == HeaderLines(q)[0];
    assert HeaderLines(q)[0] == "*" + t + "*";
    BoldRoundTrip(t);
    OpeningLineAt(q, loc, 0);
  }

  /** The provider line `*De:* name` is shown plain unless the name itself ends with `*`. */
  lemma ProviderLineStyle(q: Quote, loc: Locale)
    requires SingleLineFields(q)
    ensures |Preview(FormatQuote(q, loc))| > 2
    ensures var name := Or(q.providerName, NotInformed);
      name != "" && name[|name| - 1] != '*' ==> Preview(FormatQuote(q, loc))[2] == Plain("*De:* " + name)
  {
    assert OpeningLines(q)[2] == ProviderLines(q)[0];
    OpeningLineAt(q, loc, 2);
  }
}

=== FILE: storage.dfy ===
/**
 * The browser's key-value store, reduced to the two slots the program uses:
 * `dashboardData` and `estrelaGuiaAuthUser`. Serialisation is abstract: a slot
 * holds either text that parses back to a value, or text that does not parse.
 */
module Storage {
  import opened Wrappers
  import opened Types

  datatype Blob<T> = Stored(value: T) | Unparsable

  class LocalStorage {
    var dashboardData: Option<Blob<DashboardData>>
    var authUser: Option<Blob<AuthUser>>

    constructor (dashboardData: Option<Blob<DashboardData>>, authUser: Option<Blob<AuthUser>>)
      ensures this.dashboardData == dashboardData && this.authUser == authUser
    {
      this.dashboardData := dashboardData;
      this.authUser := authUser;
    }
  }
}

=== FILE: strings.dfy ===
/**
 * String helpers shared by the model: decimal digits, JavaScript-style
 * `split`/`join`, the `||` fallback on strings, `trim`, ASCII lower-casing
 * and the restricted `parseInt`/`parseFloat` readers the form uses.
 */
module Strings {
  import opened Wrappers

  predicate IsDigit(c: char) { '0' <= c <= '9' }

  predicate AllDigits(s: string) { forall i :: 0 <= i < |s| ==> IsDigit(s[i]) }

  function DigitValue(c: char): (d: nat)
    requires IsDigit(c)
    ensures d < 10
  {
    c as int - '0' as int
  }

  function DigitChar(d: nat): (c: char)
    requires d < 10
    ensures IsDigit(c) && DigitValue(c) == d
  {
    ('0' as int + d) as char
  }

  /** The value of a string of decimal digits, most significant first. */
  function DigitsToNat(s: string): nat
    requires AllDigits(s)
  {
    if s == [] then 0 else DigitsToNat(s[..|s| - 1]) * 10 + DigitValue(s[|s| - 1])
  }

  function Pow10(k: nat): (p: nat)
    ensures p >= 1
  {
    if k == 0 then 1 else 10 * Pow10(k - 1)
  }

  /** Decimal rendering of a natural number (`String(n)` in JavaScript). */
  function NatToString(n: nat): (s: string)
    ensures |s| >= 1 && AllDigits(s)
    ensures n < 10 <==> |s| == 1
    ensures |s| > 1 ==> s[0] != '0'
  {
    if n < 10 then [DigitChar(n)] else NatToString(n / 10) + [DigitChar(n % 10)]
  }

  lemma {:induction false} NatToStringRoundTrip(n: nat)
    ensures DigitsToNat(NatToString(n)) == n
  {
    if n >= 10 {
      var s := NatToString(n);
      assert s[..|s| - 1] == NatToString(n / 10);
      NatToStringRoundTrip(n / 10);
    }
  }

  /** Two-digit zero padding (`String(n).padStart(2, '0')` for n < 100). */
  function Pad2(n: nat): (s: string)
    requires n < 100
    ensures |s| == 2 && AllDigits(s) && DigitsToNat(s) == n
  {
    var s := [DigitChar(n / 10), DigitChar(n % 10)];
    assert s[..1] == [DigitChar(n / 10)];
    assert DigitsToNat(s[..1]) == n / 10 by { assert s[..1][..0] == []; }
    s
  }

  /** JavaScript's `a || b` on strings: the empty string is falsy. */
  function Or(s: string, fallback: string): (r: string)
    ensures s != "" ==> r == s
    ensures s == "" ==> r == fallback
  {
    if s == "" then fallback else s
  }

  /** `parts.join(sep)`. */
  function Join(parts: seq<string>, sep: string): (r: string)
    ensures parts == [] ==> r == ""
    ensures parts != [] ==> |parts[0]| <= |r| && r[..|parts[0]|] == parts[0]
    ensures |parts| > 1 ==> |parts[0]| + |sep| <= |r| && r[|parts[0]|..|parts[0]| + |sep|] == sep
  {
    if |parts| == 0 then ""
    else if |parts| == 1 then parts[0]
    else parts[0] + sep + Join(parts[1..], sep)
  }

  /** Joining one more part adds the separator and the part at the end. */
  lemma {:induction false} JoinSnoc(parts: seq<string>, p: string, sep: string)
    requires parts != []
    ensures Join(parts + [p], sep) == Join(parts, sep) + sep + p
  {
    var ps := parts + [p];
    assert ps[0] == parts[0];
    if |parts| > 1 {
      assert ps[1..] == parts[1..] + [p];
      calc {
        Join(ps, sep);
        parts[0] + sep + Join(parts[1..] + [p], sep);
        { JoinSnoc(parts[1..], p, sep); }
        parts[0] + sep + (Join(parts[1..], sep) + sep + p);
        Join(parts, sep) + sep + p;
      }
    } else {
      assert ps[1..] == [p];
    }
  }

  function IndexOf(s: string, d: char): (i: nat)
    requires d in s
    ensures i < |s| && s[i] == d && d !in s[..i]
  {
    if s[0] == d then 0
    else
      assert d in s[1..] by { var k :| 0 <= k < |s| && s[k] == d; assert s[1..][k - 1] == d; }
      var j := IndexOf(s[1..], d);
      assert s[..j + 1] == [s[0]] + s[1..][..j];
      j + 1
  }

  /** `s.split(d)` for a one-character separator: never empty, no piece holds `d`. */
  function Split(s: string, d: char): (r: seq<string>)
    ensures |r| >= 1
    ensures forall k :: 0 <= k < |r| ==> d !in r[k]
    decreases |s|
  {
    if d !in s then [s]
    else
      var i := IndexOf(s, d);
      [s[..i]] + Split(s[i + 1..], d)
  }

  lemma SplitNoDelimiter(s: string, d: char)
    requires d !in s
    ensures Split(s, d) == [s]
  {
  }

  /** The first piece of `a + [d] + b` is `a` when `a` holds no `d`. */
  lemma SplitAfterLine(a: string, d: char, b: string)
    requires d !in a
    ensures Split(a + [d] + b, d) == [a] + Split(b, d)
  {
    var s := a + [d] + b;
    assert s[|a|] == d;
    var i := IndexOf(s, d);
    assert s[..|a|] == a;
    assert s[..i] == a;
    assert s[i + 1..] == b;
  }

  /** Three separator-free pieces joined by the separator split back into them. */
  lemma SplitThree(a: string, b: string, c: string, d: char)
    requires d !in a && d !in b && d !in c
    ensures Split(a + [d] + b + [d] + c, d) == [a, b, c]
  {
    assert a + [d] + b + [d] + c == a + [d] + (b + [d] + c);
    SplitAfterLine(a, d, b + [d] + c);
    SplitAfterLine(b, d, c);
    SplitNoDelimiter(c, d);
  }

  /** Splitting at the first separator of a string splits the two sides independently. */
  lemma {:induction false} SplitConcat(a: string, d: char, b: string)
    ensures Split(a + [d] + b, d) == Split(a, d) + Split(b, d)
    decreases |a|
  {
    if d !in a {
      SplitAfterLine(a, d, b);
    } else {
      var i := IndexOf(a, d);
      var a1, a2 := a[..i], a[i + 1..];
      assert a == a1 + [d] + a2;
      assert a + [d] + b == a1 + [d] + (a2 + [d] + b);
      calc {
        Split(a + [d] + b, d);
        Split(a1 + [d] + (a2 + [d] + b), d);
        { SplitAfterLine(a1, d, a2 + [d] + b); }
        [a1] + Split(a2 + [d] + b, d);
        { SplitConcat(a2, d, b); }
        [a1] + (Split(a2, d) + Split(b, d));
        ([a1] + Split(a2, d)) + Split(b, d);
        { SplitAfterLine(a1, d, a2); }
        Split(a, d) + Split(b, d);
      }
    }
  }

  /** Lines each followed by a line feed. */
  function JoinLines(lines: seq<string>): string
  {
    if lines == [] then "" else lines[0] + "\n" + JoinLines(lines[1..])
  }

  lemma JoinLinesCons(x: string, rest: seq<string>)
    ensures JoinLines([x] + rest) == x + "\n" + JoinLines(rest)
  {
    assert ([x] + rest)[1..] == rest;
  }

  lemma {:induction false} JoinLinesAppend(a: seq<string>, b: seq<string>)
    ensures JoinLines(a + b) == JoinLines(a) + JoinLines(b)
  {
    if a == [] {
      assert a + b == b;
    } else {
      assert (a + b)[1..] == a[1..] + b;
      JoinLinesAppend(a[1..], b);
    }
  }

  predicate NoNewline(lines: seq<string>)
  {
    forall k :: 0 <= k < |lines| ==> '\n' !in lines[k]
  }

  /** Newline-free lines, each ended by a line feed, split back into themselves. */
  lemma {:induction false} SplitJoinLines(lines: seq<string>, rest: string)
    requires NoNewline(lines)
    ensures Split(JoinLines(lines) + rest, '\n') == lines + Split(rest, '\n')
  {
    if lines != [] {
      var tail := JoinLines(lines[1..]) + rest;
      assert JoinLines(lines) + rest == lines[0] + "\n" + tail;
      calc {
        Split(JoinLines(lines) + rest, '\n');
        Split(lines[0] + "\n" + tail, '\n');
        { SplitAfterLine(lines[0], '\n', tail); }
        [lines[0]] + Split(tail, '\n');
        { SplitJoinLines(lines[1..], rest); }
        [lines[0]] + (lines[1..] + Split(rest, '\n'));
        { assert [lines[0]] + lines[1..] == lines; }
        lines + Split(rest, '\n');
      }
    } else {
      assert JoinLines(lines) + rest == rest;
    }
  }

  /** Text that starts with newline-free lines, each ended by a line feed, splits into those lines first. */
  lemma SplitPrefix(lines: seq<string>, rest: string)
    requires NoNewline(lines)
    ensures |Split(JoinLines(lines) + rest, '\n')| > |lines|
    ensures Split(JoinLines(lines) + rest, '\n')[..|lines|] == lines
  {
    SplitJoinLines(lines, rest);
    assert (lines + Split(rest, '\n'))[..|lines|] == lines;
  }

  /** Joining newline-free lines with a line feed and splitting again gives the lines. */
  lemma {:induction false} SplitOfJoin(lines: seq<string>)
    requires |lines| >= 1 && NoNewline(lines)
    ensures Split(Join(lines, "\n"), '\n') == lines
  {
    if |lines| == 1 {
      SplitNoDelimiter(lines[0], '\n');
    } else {
      SplitOfJoin(lines[1..]);
      SplitAfterLine(lines[0], '\n', Join(lines[1..], "\n"));
    }
  }

  /** Splitting and joining back with the same separator gives the input. */
  lemma {:induction false} SplitJoin(s: string, d: char)
    ensures Join(Split(s, d), [d]) == s
    decreases |s|
  {
    if d in s {
      var i := IndexOf(s, d);
      var head, rest := s[..i], s[i + 1..];
      var r := Split(rest, d);
      assert Split(s, d) == [head] + r;
      assert ([head] + r)[1..] == r;
      assert Join([head] + r, [d]) == head + [d] + Join(r, [d]);
      SplitJoin(rest, d);
      assert s == head + [d] + rest;
    } else {
      assert Split(s, d) == [s];
    }
  }

  /** Whitespace and line terminators removed by `String.prototype.trim`. */
  predicate IsJsWhitespace(c: char)
  {
    var n := c as int;
    n == 0x09 || n == 0x0A || n == 0x0B || n == 0x0C || n == 0x0D || n == 0x20 ||
    n == 0xA0 || n == 0x1680 || (0x2000 <= n <= 0x200A) || n == 0x2028 ||
    n == 0x2029 || n == 0x202F || n == 0x205F || n == 0x3000 || n == 0xFEFF
  }

  predicate AllWhitespace(s: string) { forall i :: 0 <= i < |s| ==> IsJsWhitespace(s[i]) }

  lemma WhitespaceCons(c: char, w: string)
    requires IsJsWhitespace(c) && AllWhitespace(w)
    ensures AllWhitespace([c] + w)
  {
    forall i | 0 <= i < |[c] + w| ensures IsJsWhitespace(([c] + w)[i]) {
      if i > 0 { assert ([c] + w)[i] == w[i - 1]; }
    }
  }

  lemma WhitespaceSnoc(w: string, c: char)
    requires AllWhitespace(w) && IsJsWhitespace(c)
    ensures AllWhitespace(w + [c])
  {
    forall i | 0 <= i < |w + [c]| ensures IsJsWhitespace((w + [c])[i]) {
      if i < |w| { assert (w + [c])[i] == w[i]; }
    }
  }

  function TrimStart(s: string): (r: string)
    ensures |r| <= |s| && r == s[|s| - |r|..]
    ensures AllWhitespace(s[..|s| - |r|])
    ensures r == [] || !IsJsWhitespace(r[0])
  {
    if s != [] && IsJsWhitespace(s[0]) then
      var r := TrimStart(s[1..]);
      assert s[..|s| - |r|] == [s[0]] + s[1..][..|s| - 1 - |r|];
      WhitespaceCons(s[0], s[1..][..|s| - 1 - |r|]);
      r
    else s
  }

  function TrimEnd(s: string): (r: string)
    ensures |r| <= |s| && r == s[..|r|]
    ensures AllWhitespace(s[|r|..])
    ensures r == [] || !IsJsWhitespace(r[|r| - 1])
  {
    if s != [] && IsJsWhitespace(s[|s| - 1]) then
      var r := TrimEnd(s[..|s| - 1]);
      assert s[|r|..] == s[..|s| - 1][|r|..] + [s[|s| - 1]];
      WhitespaceSnoc(s[..|s| - 1][|r|..], s[|s| - 1]);
      r
    else s
  }

  /** `s.trim()`: the input with leading and trailing whitespace removed. */
  function Trim(s: string): (r: string)
    ensures |r| <= |s|
    ensures r == [] || (!IsJsWhitespace(r[0]) && !IsJsWhitespace(r[|r| - 1]))
  {
    TrimEnd(TrimStart(s))
  }

  /** Leading and trailing whitespace is exactly what the two trims skip. */
  lemma {:induction false} TrimStartSkips(ws: string, t: string)
    requires AllWhitespace(ws)
    ensures TrimStart(ws + t) == TrimStart(t)
  {
    if ws != [] {
      assert (ws + t)[0] == ws[0];
      assert (ws + t)[1..] == ws[1..] + t;
      assert AllWhitespace(ws[1..]) by {
        forall i | 0 <= i < |ws[1..]| ensures IsJsWhitespace(ws[1..][i]) { assert ws[1..][i] == ws[i + 1]; }
      }
      TrimStartSkips(ws[1..], t);
    } else {
      assert ws + t == t;
    }
  }

  lemma {:induction false} TrimEndSkips(t: string, ws: string)
    requires AllWhitespace(ws)
    ensures TrimEnd(t + ws) == TrimEnd(t)
  {
    if ws != [] {
      var init := ws[..|ws| - 1];
      assert (t + ws)[|t + ws| - 1] == ws[|ws| - 1];
      assert (t + ws)[..|t + ws| - 1] == t + init;
      assert AllWhitespace(init) by {
        forall i | 0 <= i < |init| ensures IsJsWhitespace(init[i]) { assert init[i] == ws[i]; }
      }
      TrimEndSkips(t, init);
    } else {
      assert t + ws == t;
    }
  }

  lemma StartsSolid(s: string)
    requires s != [] && !IsJsWhitespace(s[0])
    ensures TrimStart(s) == s
  {
  }

  /** `r` is the slice of `s` from `i`, with only whitespace before and after it. */
  predicate PaddedSlice(s: string, i: int, r: string)
  {
    0 <= i && i + |r| <= |s| && r == s[i..i + |r|] && AllWhitespace(s[..i]) && AllWhitespace(s[i + |r|..])
  }

  /** What `trim` removes is whitespace at either end, and what it keeps is one slice of the input. */
  lemma {:induction false} TrimKeepsMiddle(s: string)
    ensures PaddedSlice(s, |s| - |TrimStart(s)|, Trim(s))
  {
    var a := TrimStart(s);
    var r := Trim(s);
    assert r == TrimEnd(a);
    TrimmedSlice(s, a, r);
  }

  lemma TrimmedSlice(s: string, a: string, r: string)
    requires |a| <= |s| && a == s[|s| - |a|..] && AllWhitespace(s[..|s| - |a|])
    requires |r| <= |a| && r == a[..|r|] && AllWhitespace(a[|r|..])
    ensures PaddedSlice(s, |s| - |a|, r)
  {
    SuffixPrefix(s, a, r);
  }

  /** A prefix `r` of a suffix `a` of `s` is a slice of `s`. */
  lemma SuffixPrefix(s: string, a: string, r: string)
    requires |a| <= |s| && a == s[|s| - |a|..]
    requires |r| <= |a| && r == a[..|r|]
    ensures var i := |s| - |a|; r == s[i..i + |r|] && a[|r|..] == s[i + |r|..]
  {
  }

  /** ASCII-only `toLowerCase`. */
  function LowerAscii(c: char): (r: char)
    ensures !('A' <= r <= 'Z')
    ensures !('A' <= c <= 'Z') ==> r == c
  {
    if 'A' <= c <= 'Z' then (c as int + 32) as char else c
  }

  function ToLowerAscii(s: string): (r: string)
    ensures |r| == |s|
    ensures forall i :: 0 <= i < |s| ==> r[i] == LowerAscii(s[i])
  {
    if s == [] then [] else [LowerAscii(s[0])] + ToLowerAscii(s[1..])
  }

  /** The longest prefix of `s` made of decimal digits. */
  function DigitPrefix(s: string): (r: string)
    ensures |r| <= |s| && AllDigits(r) && r == s[..|r|]
    ensures |r| == |s| || !IsDigit(s[|r|])
  {
    if s != [] && IsDigit(s[0]) then
      var r := DigitPrefix(s[1..]);
      assert s[..|r| + 1] == [s[0]] + s[1..][..|r|];
      [s[0]] + r
    else []
  }

  /**
   * `parseInt(s, 10)` restricted to optional leading whitespace, one optional
   * sign and a run of decimal digits; `None` stands for `NaN`.
   */
  function ParseIntPrefix(s: string): (r: Option<int>)
    ensures r.None? <==> DigitPrefix(Unsigned(TrimStart(s))) == []
    ensures r.Some? ==> var t, v: int := TrimStart(s), DigitsToNat(DigitPrefix(Unsigned(TrimStart(s))));
      t != [] && r.value == if t[0] == '-' then -v else v
  {
    var t := TrimStart(s);
    var digits := DigitPrefix(Unsigned(t));
    if digits == [] then None
    else if t != [] && t[0] == '-' then Some(-(DigitsToNat(digits) as int))
    else Some(DigitsToNat(digits))
  }

  lemma {:induction false} DigitPrefixAll(s: string)
    requires AllDigits(s)
    ensures DigitPrefix(s) == s
  {
    if s != [] {
      DigitPrefixAll(s[1..]);
    }
  }

  /** The digit prefix of `a + b` is `a` when `a` is all digits and `b` does not start with one. */
  lemma {:induction false} DigitPrefixConcat(a: string, b: string)
    requires AllDigits(a)
    requires b == [] || !IsDigit(b[0])
    ensures DigitPrefix(a + b) == a
  {
    if a != [] {
      assert (a + b)[1..] == a[1..] + b;
      DigitPrefixConcat(a[1..], b);
    } else {
      assert a + b == b;
    }
  }

  /** A string made only of digits reads as its decimal value. */
  lemma ParseIntOfDigits(s: string)
    requires AllDigits(s) && s != []
    ensures ParseIntPrefix(s) == Some(DigitsToNat(s))
  {
    assert IsDigit(s[0]);
    assert TrimStart(s) == s;
    assert Unsigned(s) == s;
    DigitPrefixAll(s);
  }

  /**
   * What `parseInt` reads from optional whitespace, an optional sign and a
   * run of digits, followed by anything that is not a digit: the digits'
   * value, negated after a minus sign.
   */
  lemma ParseIntSigned(ws: string, sign: string, digits: string, rest: string)
    requires AllWhitespace(ws) && (sign == "" || sign == "+" || sign == "-")
    requires digits != [] && AllDigits(digits) && (rest == [] || !IsDigit(rest[0]))
    ensures var r, v: int := ParseIntPrefix(ws + sign + digits + rest), DigitsToNat(digits);
      r.Some? && r.value == if sign == "-" then -v else v
  {
    var x := sign + digits + rest;
    var s := ws + sign + digits + rest;
    SignedText(sign, digits, rest);
    assert TrimStart(s) == x by {
      assert s == ws + x;
      TrimmedTo(s, ws, x);
    }
    assert DigitPrefix(Unsigned(x)) == digits by {
      DigitPrefixConcat(digits, rest);
    }
    SignedValue(s, x, digits, sign == "-");
  }

  lemma SignedValue(s: string, x: string, digits: string, negative: bool)
    requires TrimStart(s) == x && x != [] && (x[0] == '-' <==> negative)
    requires DigitPrefix(Unsigned(x)) == digits && digits != []
    ensures var r, v: int := ParseIntPrefix(s), DigitsToNat(digits);
      r.Some? && r.value == if negative then -v else v
  {
  }

  lemma TrimmedTo(s: string, ws: string, x: string)
    requires AllWhitespace(ws) && s == ws + x && x != [] && !IsJsWhitespace(x[0])
    ensures TrimStart(s) == x
  {
    TrimStartSkips(ws, x);
    StartsSolid(x);
  }

  lemma SignedText(sign: string, digits: string, rest: string)
    requires (sign == "" || sign == "+" || sign == "-") && digits != [] && IsDigit(digits[0])
    ensures var x := sign + digits + rest;
      x != [] && !IsJsWhitespace(x[0]) && Unsigned(x) == digits + rest && (x[0] == '-' <==> sign == "-")
  {
    var x := sign + digits + rest;
    if sign == "" {
      assert x == digits + rest;
    } else {
      assert x[1..] == digits + rest;
    }
  }

  /** The text after one leading `+` or `-`, if there is one. */
  function Unsigned(t: string): (r: string)
    ensures r == t || (t != [] && (t[0] == '+' || t[0] == '-') && r == t[1..])
  {
    if t != [] && (t[0] == '+' || t[0] == '-') then t[1..] else t
  }

  /**
   * `parseFloat(s)` restricted to strings of the form digits, optionally a
   * point followed by digits (what the price field produces): the longest
   * such prefix is read; `None` stands for `NaN` (no digit at all).
   */
  function ParseDecimalPrefix(s: string): (r: Option<real>)
    ensures r.None? <==> (DigitPrefix(s) == [] &&
      (|s| == 0 || s[0] != '.' || DigitPrefix(s[1..]) == []))
    ensures r.Some? ==> r.value >= 0.0
  {
    var whole := DigitPrefix(s);
    var rest := s[|whole|..];
    var frac := if rest != [] && rest[0] == '.' then DigitPrefix(rest[1..]) else [];
    if whole == [] && frac == [] then None
    else Some(DecimalValue(whole, frac))
  }

  /** The number written with the digits `whole` before the point and `frac` after it. */
  function DecimalValue(whole: string, frac: string): (v: real)
    requires AllDigits(whole) && AllDigits(frac)
    ensures v >= 0.0
  {
    DigitsToNat(whole) as real + DigitsToNat(frac) as real / Pow10(|frac|) as real
  }
}

=== FILE: types.dfy ===
/** The records of the quote generator and its dashboard. */
module Types {
  import opened Wrappers
  import opened Json

  /**
   * A numeric field as the running program may hold it. The declared type is
   * `number`, but the code tests `typeof x === 'number'` before using it, so a
   * value of another type is part of the model.
   */
  datatype Amount = Num(n: real) | NonNumeric

  datatype QuoteItem = QuoteItem(id: string, description: string, quantity: Amount, price: Amount)

  datatype QuoteStatus = Rascunho | Enviado | Negociacao | Ganhou | Perdeu

  /** Dates are time stamps: milliseconds since 1970-01-01T00:00:00Z, as `getTime()` gives them. */
  datatype Quote = Quote(
    id: string,
    title: string,
    createdAt: int,
    validity: int,
    providerName: string,
    providerLogo: Option<string>,
    providerContact: string,
    clientName: string,
    clientContact: string,
    items: seq<QuoteItem>,
    total: real,
    status: QuoteStatus,
    probability: int)

  datatype LeadStatus = Novo | Qualificado | Perdido | Convertido

  datatype Lead = Lead(
    id: string, companyName: string, contact: string, email: string, phone: string,
    source: string, status: LeadStatus, entryDate: int, estimatedTicket: real)

  datatype Client = Client(
    id: string, name: string, cnpj: string, segment: string, region: string, poc: string,
    estimatedCLV: real, startDate: int, active: bool)

  datatype TaskStatus = AFazer | EmProgresso | Bloqueado | Concluido

  datatype Priority = Baixa | Media | Alta

  datatype TaskKind = FollowUp | AjusteDeProposta | Reuniao | Outro

  datatype Task = Task(
    id: string, title: string, relatedTo: string, assignee: string, priority: Priority,
    status: TaskStatus, deadline: int, kind: TaskKind)

  datatype RecordKind = Receita | Custo

  datatype FinancialRecord = FinancialRecord(
    id: string, kind: RecordKind, description: string, relatedTo: string, value: real,
    date: int, category: string, paid: bool)

  datatype DashboardData = DashboardData(
    leads: seq<Lead>,
    quotes: seq<Quote>,
    clients: seq<Client>,
    tasks: seq<Task>,
    financials: seq<FinancialRecord>)

  datatype AuthUser = AuthUser(
    uid: string, email: string, providerName: string, providerContact: string,
    providerLogo: Option<string>)

  datatype QuoteDetails = QuoteDetails(description: string, price: real)

  /**
   * The AI reply. The elements of `introMensagens` are whatever the service
   * sent: nothing checks that they are strings.
   */
  datatype AISuggestionResponse = AISuggestionResponse(
    introMensagens: seq<Json>,
    quoteDetails: QuoteDetails,
    mensagemFinal: string)

  predicate HasItemId(items: seq<QuoteItem>, id: string)
  {
    exists i :: 0 <= i < |items| && items[i].id == id
  }
}

=== FILE: wrappers.dfy ===
/** Option and Result, the two shapes used for absent values and error paths. */
module Wrappers {

  datatype Option<+T> = None | Some(value: T)

  datatype Result<+T, +E> = Success(value: T) | Failure(error: E)
}
